=== FILE: README.md ===
# English Teacher App — a Dafny model of its core rules

English Teacher is a Next.js application for French-speaking learners of English.
An LLM writes lessons, vocabulary lists and quizzes into a hosted database. Users
sign in with a plain username, which the application maps to an internal e-mail.
Pages then show vocabulary, quizzes and progress. This project models the
deterministic rules under that application as immutable datatypes and pure
functions, and proves what they promise:

- **Username identity** (`UsernameAuth`, `Text`). Usernames are trimmed and
  lower-cased, validated against `^[a-z0-9_]{3,20}$`, and turned into
  `<username>@<internal domain>`. The model proves normalisation idempotent,
  validation and e-mail derivation insensitive to it, and the e-mail's local part
  a round trip.
- **Language check** (`FrenchHeuristic`). `looksLikeFrench` tokenises, counts
  French and English stopwords, adds a bonus for accented letters and decides.
  The model proves the three-way decision, the disjointness of the stopword
  lists and the tokeniser's compositionality.
- **Generation pipeline** (`ContentGenerator`). `generateCompleteLesson` runs
  lesson, order index, lesson row, vocabulary, vocabulary rows, quiz and quiz
  rows. The LLM is an oracle `Llm`, one function per prompt kind, each already
  composed with `JSON.parse`. The store is three tables `Db` plus an oracle
  `Store` that says which call reports an error. Each run records the prompts it
  sent, so "the quiz was never asked for" is observable. The model proves
  prompt order, row tagging, counts, order-index numbering and the no-rollback
  failure behaviour.
- **HTTP entry points** (`GenerateContentRoute`, `DailyCronRoute`). They are
  modelled as decision procedures: status codes, which check comes first,
  whether generation runs, and the two-level daily loop with per-level error
  capture.
- **Profile synchronisation** (`UserProfile`). This is the row `ensureUserProfile`
  upserts: the fallback username comes from the e-mail prefix, with `??`
  precedence.
- **Pages** (`LoginPage`, `SignupPage`, `VocabularyPage`, `QuizzesPage`,
  `ProfilePage`, `MobileNav`). Their handlers are modelled as functions from
  inputs and service answers to the resulting page state: validation order,
  daily-word selection, learned-word toggling, filters, counters, per-lesson quiz
  counts, password-change checks and active-link matching.

A JavaScript `null`/`undefined` is `Option.None`. A thrown `Error` is
`Result.Err` carrying its message. Strings are sequences of Unicode scalar values.

Two behaviours of the code are modelled as written:

- The highest order index is read with a descending order and `single()`.
  PostgreSQL puts nulls first in a descending order. So when a single lesson has
  no index, the read returns a row whose `order_index` is null. Then `?? 0`
  numbers the next lesson 1 again (`ContentGenerator.NullOrderIndexRestartsNumbering`).
- The stopword lists have 38 French and 24 English entries.

## Model

| member | source | states |
|---|---|---|
| Text.Trim | src/lib/usernameAuth.ts:4 | `trim` returns an infix of its input with no whitespace at either end, and everything it cut away is whitespace |
| Text.BeforeFirst | src/lib/userProfile.ts:9 | `split('@')[0]` is a prefix without `@`, and it stops exactly at the first `@` when there is one |
| Text.BeforeFirstOfJoin | src/lib/userProfile.ts:9 | splitting `head + "@" + tail` gives `head` back when `head` has no `@` |
| UsernameAuth.InternalEmailDomain | src/lib/usernameAuth.ts:1-2 | the domain is the configured one when it is set and non-empty, otherwise the default; it is never empty |
| UsernameAuth.NormalizeUsername | src/lib/usernameAuth.ts:4 | a normalised username has no whitespace at either end, no upper-case letter, and is no longer than the input |
| UsernameAuth.ToInternalEmail | src/lib/usernameAuth.ts:9-12 | the address ends in `@` and the domain, and for a valid username the text before its first `@` is the normalised username; partners: `EmailLocalPartRoundTrip`, `InternalEmailIdentifiesUser` |
| UsernameAuth.KelvinSignUsername | src/lib/usernameAuth.ts:4-12 | a name starting with the Kelvin sign U+212A lower-cases to ASCII, is valid, and maps to the same address as its ASCII spelling |
| UsernameAuth.MatchesUsernamePattern | src/lib/usernameAuth.ts:7 | the anchored pattern matches exactly when the length is within the bounds and every character is in `[a-z0-9_]` |
| UsernameAuth.IsValidUsername | src/lib/usernameAuth.ts:6-7 | a username is valid exactly when its normalised form has 3 to 20 characters, all in `[a-z0-9_]` |
| UsernameAuth.NormalizeIdempotent | src/lib/usernameAuth.ts:4 | normalising twice equals normalising once |
| UsernameAuth.ValidityIgnoresNormalization | src/lib/usernameAuth.ts:6-7 | a username and its normalised form are valid alike |
| UsernameAuth.InternalEmailIgnoresNormalization | src/lib/usernameAuth.ts:9-12 | normalising before deriving the e-mail changes nothing |
| UsernameAuth.InternalEmailIdentifiesUser | src/lib/usernameAuth.ts:9-12 | two usernames share an internal e-mail if and only if they normalise alike |
| UsernameAuth.EmailLocalPartRoundTrip | src/lib/usernameAuth.ts:6-12 | for a valid username, the text before the first `@` of its e-mail is the normalised username |
| FrenchHeuristic.LeadingWord | src/lib/contentGenerator.ts:39 | the leading run of word characters is a prefix and is maximal |
| FrenchHeuristic.Tokens | src/lib/contentGenerator.ts:39 | every match of the global word pattern is a non-empty run of word characters |
| FrenchHeuristic.TokensSplitAtSeparator | src/lib/contentGenerator.ts:39 | the tokens of `a c b`, for a non-word `c`, are the tokens of `a` followed by those of `b` |
| FrenchHeuristic.TokensOfWord | src/lib/contentGenerator.ts:39 | a single run of word characters is exactly one token |
| FrenchHeuristic.TwoWordTokens | src/lib/contentGenerator.ts:39 | two words around one separator are exactly those two tokens |
| FrenchHeuristic.TokensEmptyIffNoWordChar | src/lib/contentGenerator.ts:39 | there are no matches exactly when the text has no word character (the `\|\| []` case) |
| FrenchHeuristic.StopwordListsDisjoint | src/lib/contentGenerator.ts:24-35 | no word is both a French and an English stopword |
| FrenchHeuristic.HitsShareTokens | src/lib/contentGenerator.ts:43-46 | each token increments at most one counter, so the two counts add up to at most the token count |
| FrenchHeuristic.CountStopwordHits | src/lib/contentGenerator.ts:43-46 | the counting loop computes the number of French and of English stopword tokens, together at most the token count |
| FrenchHeuristic.AccentedTextLooksFrench | src/lib/contentGenerator.ts:48-51 | a text with an accented letter, in either case, is judged French |
| FrenchHeuristic.FrenchStopwordsDecide | src/lib/contentGenerator.ts:43-51 | two French stopwords make a text French whatever the English count |
| FrenchHeuristic.EnglishStopwordsReject | src/lib/contentGenerator.ts:48-53 | without accents, with fewer than two French and at least two English hits, a text is not French |
| FrenchHeuristic.LooksLikeFrench | src/lib/contentGenerator.ts:37-54 | the text is French exactly when it has an accent, or at least two French stopword tokens, or more French than English ones while the English ones stay below two; partners: `AccentedTextLooksFrench`, `FrenchStopwordsDecide`, `EnglishStopwordsReject`, `UnaccentedDecision` |
| FrenchHeuristic.UnaccentedDecision | src/lib/contentGenerator.ts:48-53 | without accents the decision is exactly: two French hits, or more French than English hits while English stays below two; ties below two are not French |
| FrenchHeuristic.EmptyTextIsNotFrench | src/lib/contentGenerator.ts:37-54 | the empty text is not French |
| FrenchHeuristic.EnglishTitleIsNotFrench | src/lib/contentGenerator.ts:37-54 | an unaccented English title ("The Lesson") fails the check, so translation is requested |
| FrenchHeuristic.AccentedTitleIsFrench | src/lib/contentGenerator.ts:48-51 | a title with an accented letter passes the check |
| ContentGenerator.ParseLevel | src/app/api/generate-content/route.ts:14 | a level parses exactly when it is one of the three names, and parses to the level of that name |
| ContentGenerator.PromptTopic | src/lib/contentGenerator.ts:79 | the prompt topic is the given one when non-empty, otherwise the default, and never empty |
| ContentGenerator.EscapeQuotes | src/lib/contentGenerator.ts:62 | every `"` in the escaped text is preceded by a backslash, and the text does not start with a bare quote |
| ContentGenerator.EscapeQuotesRoundTrip | src/lib/contentGenerator.ts:62 | unescaping the escaped text gives the original back: only quotes changed |
| ContentGenerator.GenerateLesson | src/lib/contentGenerator.ts:97-108 | the lesson prompt goes first; a failing reply fails; title and description are replaced by the translation exactly when either fails the French check; content is kept and the level is forced to the requested one |
| ContentGenerator.VocabularyTarget | src/lib/contentGenerator.ts:144 | the vocabulary prompt asks for 8, 10 or 12 words |
| ContentGenerator.VocabularyTargetGrowsWithLevel | src/lib/contentGenerator.ts:144 | a harder level asks for strictly more words, and only a harder level does |
| ContentGenerator.MaxOrderIndex | src/lib/contentGenerator.ts:211-216 | the maximum order index is at least every index and is attained |
| ContentGenerator.TopOrderIndex | src/lib/contentGenerator.ts:211-216 | the descending read returns a value exactly when the table is non-empty and no index is null, and that value bounds every index |
| ContentGenerator.VocabularyRows | src/lib/contentGenerator.ts:247-253 | one vocabulary row per generated word, in order, each tagged with the lesson id |
| ContentGenerator.QuizRows | src/lib/contentGenerator.ts:271-277 | one quiz row per generated question, in order, tagged with the lesson id, options stringified |
| ContentGenerator.Words | src/lib/contentGenerator.ts:266 | the quiz prompt's word list is the vocabulary's words, in order |
| ContentGenerator.InsertLessonStep | src/lib/contentGenerator.ts:218-240 | the lesson insert adds at most one row with the next order index and a fresh id; when it fails the store is untouched and the run fails |
| ContentGenerator.VocabularyStep | src/lib/contentGenerator.ts:242-263 | the vocabulary prompt asks for the level's target; only the quiz prompt may follow; no lesson row is added; a run that stops before the quiz prompt has failed and written nothing |
| ContentGenerator.QuizStep | src/lib/contentGenerator.ts:265-295 | exactly the quiz prompt is sent, with the vocabulary words; only quiz rows may be added, and a failed quiz generation or quiz insert adds none |
| ContentGenerator.QuizFailureKeepsLessonAndVocabulary | src/lib/contentGenerator.ts:265-285 | a failed quiz generation fails the run with its message, a failed quiz insert with "Failed to insert quiz questions: " and the store's message; either way the lesson and vocabulary rows stay and no quiz row is added |
| ContentGenerator.GenerateCompleteLesson | src/lib/contentGenerator.ts:198-296 | a run first sends the lesson prompt for the level and topic, adds at most one lesson, and adds exactly one, under the next id, when it succeeds; partners: `PromptsFollowPipelineOrder`, `RunOnlyAppends`, `SuccessfulRunRecordsEverything`, and one failure lemma per step (`LessonGenerationFailureStopsEarly`, `LessonInsertFailureStopsEarly`, `VocabularyGenerationFailureKeepsLesson`, `VocabularyInsertFailureKeepsLesson`, `QuizFailureKeepsLessonAndVocabulary`) |
| ContentGenerator.InsertStepKeepsStageOrder | src/lib/contentGenerator.ts:220-267 | from the lesson insert on, prompts keep pipeline order and the vocabulary prompt carries the level and its target |
| ContentGenerator.PromptsFollowPipelineOrder | src/lib/contentGenerator.ts:198-267 | a run starts with the lesson prompt and sends each kind at most once, in pipeline order |
| ContentGenerator.RunOnlyAppends | src/lib/contentGenerator.ts:220-285 | no step deletes or rewrites a row, at most one lesson is added, and ids stay below the next id |
| ContentGenerator.NewOrderIndexExceedsExisting | src/lib/contentGenerator.ts:211-229 | with a successful read and no null index, the new lesson's order index exceeds every existing one, and is 1 on an empty table |
| ContentGenerator.NullOrderIndexRestartsNumbering | src/lib/contentGenerator.ts:211-218 | a lesson with a null index makes the new lesson's order index 1 |
| ContentGenerator.LessonGenerationFailureStopsEarly | src/lib/contentGenerator.ts:206-208 | a failed lesson generation fails the run with its error, leaves the store untouched, and sends no vocabulary or quiz prompt |
| ContentGenerator.LessonInsertFailureStopsEarly | src/lib/contentGenerator.ts:235-237 | a failed lesson insert fails the run with its message, leaves the store untouched, and sends no vocabulary or quiz prompt |
| ContentGenerator.VocabularyGenerationFailureKeepsLesson | src/lib/contentGenerator.ts:242-244 | a failed vocabulary generation fails the run with its error, keeps the lesson row, adds no vocabulary or quiz rows, and sends no quiz prompt |
| ContentGenerator.VocabularyInsertFailureKeepsLesson | src/lib/contentGenerator.ts:255-261 | a failed vocabulary insert fails the run with its message, keeps the lesson row, adds no vocabulary or quiz rows, and sends no quiz prompt |
| ContentGenerator.SuccessfulRunRecordsEverything | src/lib/contentGenerator.ts:239-295 | on success the lesson has a fresh id and the requested level, every added row carries that id in generated order, and the counts are the list lengths |
| ContentGenerator.SuccessfulRunContinuesNumbering | src/lib/contentGenerator.ts:211-229 | after a success on a fully numbered table, the highest index is the one just assigned |
| ContentGenerator.SuccessfulRunAppendsRow | src/lib/contentGenerator.ts:211-240 | with a successful order read, a successful run appends one row under the next id and the next order index |
| ContentGenerator.NumberedAppendsFromEmpty | src/lib/contentGenerator.ts:211-229 | three numbered appends onto an empty table give order indexes 1, 2, 3 and distinct ids |
| ContentGenerator.ThreeRunsNumberOneTwoThree | src/lib/contentGenerator.ts:211-233 | three successful runs on an empty table number the lessons 1, 2, 3 with distinct ids |
| GenerateContentRoute.Post | src/app/api/generate-content/route.ts:8-78 | the status is 201, 400, 401 or 500; 201 exactly with the created payload; 400 and 401 change nothing and send no prompt; an unreadable body answers 500 with the read's message and changes nothing |
| GenerateContentRoute.UnreadableBodyAnswers500 | src/app/api/generate-content/route.ts:68-77 | a body whose JSON read throws answers 500 with `success: false` and the message whatever the credentials, with no write and no prompt |
| GenerateContentRoute.MissingLevelMeansBeginner | src/app/api/generate-content/route.ts:11 | a body without `level` generates a beginner lesson |
| GenerateContentRoute.InvalidLevelRejectedBeforeAuth | src/app/api/generate-content/route.ts:14-19 | an unknown level answers 400 whatever the credentials, before any generation |
| GenerateContentRoute.UnauthenticatedGeneratesNothing | src/app/api/generate-content/route.ts:49-55 | an auth error or missing user answers 401 and generates nothing |
| GenerateContentRoute.CreatedCarriesPipelineSummary | src/app/api/generate-content/route.ts:58-67 | 201 exactly when a valid, authenticated request's run succeeded; the payload is the run's summary and the topic reached the lesson prompt |
| GenerateContentRoute.PipelineErrorAnswers500 | src/app/api/generate-content/route.ts:68-77 | a failing run answers 500 with its message, keeping whatever it inserted |
| DailyCronRoute.CronSecret | src/app/api/cron/generate-daily/route.ts:12 | the secret is the configured one when non-empty, otherwise `dev-secret` |
| DailyCronRoute.LevelOutcome | src/app/api/cron/generate-daily/route.ts:36-53 | a level's entry records success with the summary, or failure with the error message |
| DailyCronRoute.SuccessCount | src/app/api/cron/generate-daily/route.ts:56 | the success count is at most the number of entries, and equals it exactly when every entry succeeded |
| DailyCronRoute.SuccessCountAdds | src/app/api/cron/generate-daily/route.ts:35-56 | the count of two result lists in sequence is the sum of their counts, so one success and one failure report 1 |
| DailyCronRoute.Attempt | src/app/api/cron/generate-daily/route.ts:35-54 | one iteration appends the level's entry and continues on the store the run left |
| DailyCronRoute.RunLevels | src/app/api/cron/generate-daily/route.ts:31-54 | the loop yields one entry per level, in level order |
| DailyCronRoute.RunTwoLevels | src/app/api/cron/generate-daily/route.ts:31-54 | with two levels, the second run starts from the store the first left, and the entries are those two outcomes |
| DailyCronRoute.RunDailyLevels | src/app/api/cron/generate-daily/route.ts:32-54 | the loop attempts each daily level in order on the store the previous attempt left, collecting outcomes and prompts as the recursive batch definition does |
| DailyCronRoute.DailyGenerate | src/app/api/cron/generate-daily/route.ts:8-63 | without the exact bearer header nothing runs; otherwise beginner then intermediate run in sequence and the message reports successes out of 2 |
| DailyCronRoute.AtMostTwoLessonsADay | src/app/api/cron/generate-daily/route.ts:56-60 | at most two lessons are reported created |
| DailyCronRoute.BeginnerFailureStillTriesIntermediate | src/app/api/cron/generate-daily/route.ts:36-53 | a beginner failure is recorded with its message and the intermediate level still runs |
| DailyCronRoute.BothFailedStillCompletes | src/app/api/cron/generate-daily/route.ts:56-63 | when both levels fail the run still completes, with two entries and no success |
| DailyCronRoute.DailyLessonsUseDefaultTopic | src/app/api/cron/generate-daily/route.ts:37 | each daily lesson is asked for on the default topic |
| UserProfile.FallbackUsername | src/lib/userProfile.ts:9-10 | the fallback exists exactly when the e-mail exists and its prefix before `@` is non-empty, and it is that prefix normalised |
| UserProfile.ProfileRowFor | src/lib/userProfile.ts:12-17 | the row has the user's id, the e-mail or `''`, the metadata full name, and the metadata username when not null, otherwise the fallback |
| UserProfile.EnsureUserProfile | src/lib/userProfile.ts:6-25 | no user gives false with no upsert; otherwise the row is upserted and the result is true exactly when the upsert reported no error |
| UserProfile.SignupUserKeepsUsername | src/lib/userProfile.ts:9-16 | a user created from a valid username's internal e-mail gets that normalised username back, with or without metadata |
| UserProfile.EmptyMetadataUsernameWins | src/lib/userProfile.ts:16 | an empty metadata username is kept: `??` replaces only null and undefined |
| MobileNav.Render | src/components/MobileBottomNav.tsx:16-30 | nothing renders without a user; otherwise one flag per link, in order, each the link's active test |
| MobileNav.ActiveMeansSegmentPrefix | src/components/MobileBottomNav.tsx:30 | a link is active exactly when the path starts with it and ends there or continues with `/` |
| MobileNav.SiblingPrefixIsInactive | src/components/MobileBottomNav.tsx:30 | `/lessonsX` does not activate `/lessons` |
| MobileNav.NoPathNothingActive | src/components/MobileBottomNav.tsx:30 | with no pathname no link is active |
| MobileNav.ActiveSharesSecondChar | src/components/MobileBottomNav.tsx:30 | an active link and the path agree on their second character |
| MobileNav.AtMostOneActive | src/components/MobileBottomNav.tsx:8-30 | with the five fixed links, at most one is active for any path |
| LoginPage.HandleLogin | src/app/login/page.tsx:16-44 | an invalid username shows the error and no sign-in is attempted; otherwise sign-in uses the internal e-mail, an auth error is shown without navigating, success goes to `/dashboard`; loading always ends false |
| LoginPage.EquivalentUsernamesLogInAlike | src/app/login/page.tsx:22-31 | inputs differing only in case or surrounding whitespace log in identically |
| LoginPage.LoginReachesSignupAccount | src/app/login/page.tsx:22-31 | a login targets a sign-up's account exactly when the two usernames normalise alike |
| SignupPage.HandleSignup | src/app/signup/page.tsx:19-72 | a mismatch is reported before username validity, and neither calls the auth service; a profile row is written only on success with a user, with the same e-mail and username as the auth request |
| SignupPage.SignupRowAgreesWithProfileSync | src/app/signup/page.tsx:38-61 | the row written at sign-up equals the row profile synchronisation would upsert for that user |
| SignupPage.SignupEmailEncodesUsername | src/app/signup/page.tsx:38-61 | the fallback username recovered from the stored e-mail is the stored username |
| VocabularyPage.Filtered | src/app/vocabulary/page.tsx:161-170 | a word is shown exactly when it is listed and passes the filter, and the view is no longer than the list |
| VocabularyPage.AllFilterShowsEverything | src/app/vocabulary/page.tsx:169 | the `all` filter returns the list unchanged |
| VocabularyPage.LearnedAndUnlearnedPartition | src/app/vocabulary/page.tsx:162-163 | the learned and unlearned views together are the list, as a multiset |
| VocabularyPage.DailyViewModes | src/app/vocabulary/page.tsx:164-168 | the daily view shows today's unlearned words, or today's learned words in review mode, and the two never overlap |
| VocabularyPage.LearnedCount | src/app/vocabulary/page.tsx:172-174 | the learned count is at most the number of listed words and of learned ids |
| VocabularyPage.IdsSnoc | src/app/vocabulary/page.tsx:173 | the ids `vocabulary.some(v => v.id === id)` finds in a list extended by one word are the old ids plus that word's id |
| VocabularyPage.LearnedCountSnoc | src/app/vocabulary/page.tsx:172-174 | listing one more word, under a new id, raises the learned count by one exactly when that word is learned |
| VocabularyPage.LearnedCountIsLearnedTabSize | src/app/vocabulary/page.tsx:161-174 | when no id is listed twice, the "Progrès" counter equals the number of words the "learned" tab shows |
| VocabularyPage.DailyCountersSplitToday | src/app/vocabulary/page.tsx:245-254 | "Nouveaux" counts today's unlearned words, and it plus "Révision" is the size of today's set |
| VocabularyPage.DailyPick | src/app/vocabulary/page.tsx:66-70 | the daily pick is the first ten unlearned words in list order, or all of them when fewer |
| VocabularyPage.DailyPickTakesFirstUnlearned | src/app/vocabulary/page.tsx:66-70 | a pick short of ten holds every unlearned word, and ten unlearned words give a full pick |
| VocabularyPage.TrackingRows | src/app/vocabulary/page.tsx:73-78 | one tracking row per picked word, for the user and today, not a review |
| VocabularyPage.SelectToday | src/app/vocabulary/page.tsx:59-89 | tracked words for today are kept; otherwise a non-empty pick is recorded and becomes today's set; with no unlearned word nothing is inserted and today's set stays empty |
| VocabularyPage.LoadVocabulary | src/app/vocabulary/page.tsx:30-95 | a word-query error leaves the initial state; null data is an empty list; no user or a tracking-query error gives no daily words |
| VocabularyPage.FreshSelectionIsUnlearned | src/app/vocabulary/page.tsx:66-86 | a freshly recorded selection shares no word with the learned set, so "Nouveaux" starts at its size |
| VocabularyPage.TrackedIdsOfSelection | src/app/vocabulary/page.tsx:53-86 | reading back a selection's tracking rows gives the selection's ids |
| VocabularyPage.SelectionIsStableWithinADay | src/app/vocabulary/page.tsx:53-89 | a second load on the same day finds the selection and inserts nothing |
| VocabularyPage.ToggleLearned | src/app/vocabulary/page.tsx:117-159 | with no user nothing happens; otherwise a learned word is deleted and an unlearned one upserted; success flips that word, an error alerts and changes nothing; the alert reads "Failed to update: " for a reported delete error or any thrown error and "Failed to save: " for a reported upsert error, followed by the message |
| VocabularyPage.ToggleFlipsOnlyThatWord | src/app/vocabulary/page.tsx:121-153 | a successful toggle flips the word and no other |
| VocabularyPage.ToggleTwiceRestores | src/app/vocabulary/page.tsx:121-153 | two successful toggles restore the learned set |
| QuizzesPage.Increment | src/app/quizzes/page.tsx:40 | bumping a key keeps every existing key in place and appends the key with count 1 only when it was absent |
| QuizzesPage.LookupAfterIncrement | src/app/quizzes/page.tsx:40 | bumping a key adds one to its count and leaves every other count alone |
| QuizzesPage.TotalAfterIncrement | src/app/quizzes/page.tsx:40 | bumping a key adds one to the total |
| QuizzesPage.CountByLesson | src/app/quizzes/page.tsx:38-41 | the counts have at most one entry per quiz row and every key is the lesson of some row; partners: `CountsMatchOccurrences`, `KeysAreDistinct`, `TotalIsQuizCount` |
| QuizzesPage.CountsMatchOccurrences | src/app/quizzes/page.tsx:38-41 | each lesson's count is the number of quiz rows of that lesson |
| QuizzesPage.TotalIsQuizCount | src/app/quizzes/page.tsx:38-53 | the total shown is the number of quiz rows |
| QuizzesPage.IncrementKeepsDistinct | src/app/quizzes/page.tsx:40 | bumping keeps every key unique |
| QuizzesPage.KeysAreDistinct | src/app/quizzes/page.tsx:38-41 | each lesson has one entry in the counts |
| QuizzesPage.LessonWithoutQuizzesShowsZero | src/app/quizzes/page.tsx:145 | a lesson without quiz rows shows 0 questions |
| QuizzesPage.LoadQuizzes | src/app/quizzes/page.tsx:22-51 | an error from either query leaves the empty state; otherwise the counts match the rows per lesson and in total |
| QuizzesPage.LessonLabel | src/app/quizzes/page.tsx:136 | the badge shows the order index when not null, otherwise position + 1 |
| QuizzesPage.LevelColor | src/app/quizzes/page.tsx:55-66 | the colour is one of the four badge colours, and it is the neutral one exactly when the lower-cased level is none of the three level names; partner: `LevelColorIgnoresCase` |
| QuizzesPage.LevelColorIgnoresCase | src/app/quizzes/page.tsx:55-66 | a level's colour does not depend on its letter case |
| ProfilePage.CompletedCount | src/app/profile/page.tsx:82 | the completed count is at most the rows, and zero exactly when no row is completed |
| ProfilePage.RowCount | src/app/profile/page.tsx:81-84 | null data counts 0 rows, otherwise its length |
| ProfilePage.FetchProfileData | src/app/profile/page.tsx:49-94 | no user leaves the page loading; a profile error stops with zero stats; otherwise the stats are the row counts, and completed never exceeds started |
| ProfilePage.AbsentDataGivesZero | src/app/profile/page.tsx:80-85 | every stat is 0 when its query returned nothing |
| ProfilePage.HandlePasswordChange | src/app/profile/page.tsx:96-128 | mismatch, then length under 6, are rejected without an update; the update carries only the new password; success clears all three fields; failure shows the error's message or the fallback |
| ProfilePage.MismatchReportedBeforeLength | src/app/profile/page.tsx:100-108 | a mismatch is reported even when the password is also too short |
| ProfilePage.CurrentPasswordIsIgnored | src/app/profile/page.tsx:113-115 | the current-password field changes neither the message nor the update |

## Left out

- `src/lib/groq.ts` is not part of this model. The LLM call becomes the `Llm` oracle, which already includes `JSON.parse`. Replies are assumed to have the declared shape. A reply missing a field, which would make `title.replace` or a later property access throw, is not modelled.
- `JSON.stringify` of quiz options is an abstract parameter, and nothing is claimed about decoding it.
- Supabase client construction, cookies, headers and service keys are I/O configuration and are left out. So are the `dynamic`/`maxDuration` exports and the `timestamp` field of the cron response.
- Concurrency is left out: the order-index read-then-insert race between simultaneous runs. Every run is sequential.
- Store identifiers are modelled as a counter `nextId`. Only their freshness matters.
- Logging (`console.*`) is left out.
- Dates are left out. "Today" is an opaque string parameter.
- Floating-point percentages, speech synthesis, `AuthContext` (its profile sync duplicates `ensureUserProfile`), the dashboard, lessons, admin and landing pages, the navbar and layout are all left out.
- `ProfilePage.handleDeleteAccount` (src/app/profile/page.tsx:130-151) is left out. It is an account-deletion call sequence with no rule beyond "stop at the first error".
- The `GET` status endpoint of the generate-content route returns a constant and is left out.
- Text.ToLower: maps only ASCII A–Z, the Latin-1 capitals U+00C0–U+00DE except U+00D7, U+0152, U+0178 and the Kelvin sign U+212A (to `k`). The Kelvin sign is the one non-ASCII character whose lower case is an ASCII letter, so the username rules agree with JavaScript's. Other capitals, such as Greek, Cyrillic and most Latin Extended letters, keep their case here, unlike in JavaScript. Their lower cases lie outside the word pattern and the username pattern, so this changes neither result. The exception is U+0130. JavaScript lower-cases it to `i` followed by a combining dot, and the language check's word pattern then counts that `i`. Here U+0130 stays as it is and is not a word character. A username containing it is invalid either way.
- ProfilePage.HandlePasswordChange: the length check counts Unicode scalar values. JavaScript counts UTF-16 code units, so the two differ for characters outside the Basic Multilingual Plane.
- GenerateContentRoute.Post: a thrown value that is not an `Error` ("Unknown error") is not distinguished. Every failure carries a message.
- GenerateContentRoute.Post: the body's `topic` is modelled as an optional string. A non-string JSON topic cannot be expressed. The code would interpolate `{"topic": 5}` into the prompt as "5" and treat `{"topic": 0}` as absent (src/app/api/generate-content/route.ts:11, src/lib/contentGenerator.ts:79).
- GenerateContentRoute.Post: only a body that cannot be read as JSON, or that is `null`, is modelled as a failed read (500). A JSON number, string, boolean or array destructures without error in the code. It then has no `level` and proceeds as a beginner request, with the topic taken from its `topic` property if any. The model has no input for such bodies.
- DailyCronRoute.DailyGenerate: the outer `catch` answering 500 is left out. No modelled step throws outside the per-level `try`.
- VocabularyPage.LoadVocabulary: the result of the tracking insert is ignored, as in the code. The learned-ids query error is read as null data, as the code does. The model covers one load from the initial state.
- SignupPage.HandleSignup: the result of the `users` insert is ignored, as in the code. The delayed redirect is a flag.
- The page state while a request is pending is not modelled, only the state once a handler finishes.

=== FILE: contentgenerator.dfy ===
/** The content-generation pipeline of src/lib/contentGenerator.ts: one lesson, its
    vocabulary and its quiz, each asked of a language model and written to the store
    in that order, with no rollback when a later step fails.

    The model (`generateWithGroq` followed by `JSON.parse`) is an oracle `Llm` that
    answers each kind of prompt with a parsed value or the message of the error
    thrown; the store is three tables `Db` plus an oracle `Store` saying which calls
    report an error. A run returns its outcome, the store afterwards, and the
    prompts it sent, in order. */
module ContentGenerator {
  import opened Results
  import opened Text
  import opened FrenchHeuristic

  datatype Level = Beginner | Intermediate | Advanced

  function LevelName(level: Level): string {
    match level
    case Beginner => "beginner"
    case Intermediate => "intermediate"
    case Advanced => "advanced"
  }

  /** `['beginner', 'intermediate', 'advanced'].includes(s)`, returning the level. */
  function ParseLevel(s: string): (r: Option<Level>)
    ensures r.Some? <==> s in {"beginner", "intermediate", "advanced"}
    ensures r.Some? ==> LevelName(r.value) == s
  {
    if s == "beginner" then Some(Beginner)
    else if s == "intermediate" then Some(Intermediate)
    else if s == "advanced" then Some(Advanced)
    else None
  }

  /** The object parsed from the lesson reply; `level` is whatever the model echoed. */
  datatype GeneratedLesson = GeneratedLesson(title: string, description: string, content: string, level: string)

  datatype Lesson = Lesson(title: string, description: string, content: string, level: Level)

  datatype Translation = Translation(title: string, description: string)

  datatype GeneratedVocabulary = GeneratedVocabulary(word: string, frenchMeaning: string, exampleEn: string, exampleFr: string)

  datatype GeneratedQuizQuestion = GeneratedQuizQuestion(question: string, options: seq<string>, correctAnswer: string, explanation: string)

  /** The prompts sent to the model, by what each is built from. */
  datatype Prompt =
    | LessonPrompt(level: Level, topic: string)
    | TranslationPrompt(input: string)
    | VocabularyPrompt(lessonTitle: string, level: Level, count: nat)
    | QuizPrompt(lessonTitle: string, words: seq<string>)

  /** Position of each prompt kind in the pipeline. */
  function Stage(p: Prompt): nat {
    match p
    case LessonPrompt(_, _) => 0
    case TranslationPrompt(_) => 1
    case VocabularyPrompt(_, _, _) => 2
    case QuizPrompt(_, _) => 3
  }

  /** The model behind `generateWithGroq`, composed with `JSON.parse`: for each prompt,
      the parsed reply, or the message of the error the call or the parse threw. */
  datatype Llm = Llm(
    lesson: (Level, string) -> Result<GeneratedLesson>,
    translation: string -> Result<Translation>,
    vocabulary: (string, Level, nat) -> Result<seq<GeneratedVocabulary>>,
    quiz: (string, seq<string>) -> Result<seq<GeneratedQuizQuestion>>)

  const DefaultTopic := "random useful English topic"

  /** `topic || 'random useful English topic'`: an empty topic counts as none. */
  function PromptTopic(topic: Option<string>): (t: string)
    ensures t != []
    ensures topic.Some? && topic.value != [] ==> t == topic.value
    ensures topic.None? || topic.value == [] ==> t == DefaultTopic
  {
    if topic.Some? && topic.value != [] then topic.value else DefaultTopic
  }

  /** `s.replace(/"/g, '\\"')`. */
  function EscapeQuotes(s: string): (r: string)
    ensures r == [] || r[0] != '"'
    ensures forall i :: 0 <= i < |r| && r[i] == '"' ==> 0 < i && r[i - 1] == '\\'
  {
    if s == [] then []
    else (if s[0] == '"' then ['\\', '"'] else [s[0]]) + EscapeQuotes(s[1..])
  }

  /** Reads `\"` back as `"`, left to right; the inverse of `EscapeQuotes`. */
  function UnescapeQuotes(r: string): string {
    if |r| >= 2 && r[0] == '\\' && r[1] == '"' then ['"'] + UnescapeQuotes(r[2..])
    else if r == [] then []
    else [r[0]] + UnescapeQuotes(r[1..])
  }

  /** Escaping loses nothing: every `"` became `\"` and nothing else changed. */
  lemma {:induction false} EscapeQuotesRoundTrip(s: string)
    ensures UnescapeQuotes(EscapeQuotes(s)) == s
  {
    if s != [] {
      var rest := EscapeQuotes(s[1..]);
      EscapeQuotesRoundTrip(s[1..]);
      if s[0] == '"' {
        assert (['\\', '"'] + rest)[2..] == rest;
      } else {
        assert ([s[0]] + rest)[1..] == rest;
      }
    }
  }

  /** The JSON line the translation prompt embeds. */
  function TranslationInput(title: string, description: string): string {
    "{\"title\": \"" + EscapeQuotes(title) + "\", \"description\": \"" + EscapeQuotes(description) + "\"}"
  }

  /** Whether the title or the description fails the French check. */
  predicate NeedsTranslation(g: GeneratedLesson) {
    !LooksLikeFrench(g.title) || !LooksLikeFrench(g.description)
  }

  /** An outcome together with the prompts sent to produce it. */
  datatype Generated<T> = Generated(result: Result<T>, prompts: seq<Prompt>)

  /** `generateLesson`: ask for a lesson, have title and description translated when
      either fails the French check, and force the requested level. */
  function GenerateLesson(llm: Llm, level: Level, topic: Option<string>): (g: Generated<Lesson>)
    ensures g.prompts != [] && g.prompts[0] == LessonPrompt(level, PromptTopic(topic))
    ensures var raw := llm.lesson(level, PromptTopic(topic));
      && (raw.Err? ==> g.result == Err(raw.message) && |g.prompts| == 1)
      && (g.result.Ok? ==> raw.Ok? && g.result.value.level == level
                           && g.result.value.content == raw.value.content)
      && (raw.Ok? && !NeedsTranslation(raw.value) ==>
            g.result == Ok(Lesson(raw.value.title, raw.value.description, raw.value.content, level))
            && |g.prompts| == 1)
      && (raw.Ok? && NeedsTranslation(raw.value) ==>
            var tr := llm.translation(TranslationInput(raw.value.title, raw.value.description));
            && g.prompts == [g.prompts[0], TranslationPrompt(TranslationInput(raw.value.title, raw.value.description))]
            && (tr.Err? ==> g.result == Err(tr.message))
            && (tr.Ok? ==> g.result.Ok? && g.result.value.title == tr.value.title
                           && g.result.value.description == tr.value.description))
  {
    var first := LessonPrompt(level, PromptTopic(topic));
    match llm.lesson(level, PromptTopic(topic))
    case Err(e) => Generated(Err(e), [first])
    case Ok(raw) =>
      if NeedsTranslation(raw) then
        var input := TranslationInput(raw.title, raw.description);
        match llm.translation(input)
        case Err(e) => Generated(Err(e), [first, TranslationPrompt(input)])
        case Ok(tr) => Generated(Ok(Lesson(tr.title, tr.description, raw.content, level)), [first, TranslationPrompt(input)])
      else
        Generated(Ok(Lesson(raw.title, raw.description, raw.content, level)), [first])
  }

  function LevelRank(level: Level): nat {
    match level
    case Beginner => 0
    case Intermediate => 1
    case Advanced => 2
  }

  /** The number of words the vocabulary prompt asks for. */
  function VocabularyTarget(level: Level): (n: nat)
    ensures n in {8, 10, 12}
  {
    match level
    case Beginner => 8
    case Intermediate => 10
    case Advanced => 12
  }

  /** Harder levels ask for strictly more words. */
  lemma VocabularyTargetGrowsWithLevel(a: Level, b: Level)
    ensures LevelRank(a) < LevelRank(b) <==> VocabularyTarget(a) < VocabularyTarget(b)
  {
  }

  datatype LessonRow = LessonRow(id: nat, title: string, description: string, content: string, level: Level, orderIndex: Option<int>)

  datatype VocabularyRow = VocabularyRow(lessonId: nat, word: string, frenchMeaning: string, exampleEn: string, exampleFr: string)

  datatype QuizRow = QuizRow(lessonId: nat, question: string, options: string, correctAnswer: string, explanation: string)

  /** The three tables; `nextId` is the identifier the store gives the next lesson. */
  datatype Db = Db(lessons: seq<LessonRow>, vocabulary: seq<VocabularyRow>, quizQuestions: seq<QuizRow>, nextId: nat)

  /** Every lesson identifier was handed out before `nextId`. */
  predicate ValidDb(db: Db) {
    forall i :: 0 <= i < |db.lessons| ==> db.lessons[i].id < db.nextId
  }

  /** `after` holds every row of `db`, in place, possibly followed by new ones. */
  predicate Extends(db: Db, after: Db) {
    && |db.lessons| <= |after.lessons| && after.lessons[..|db.lessons|] == db.lessons
    && |db.vocabulary| <= |after.vocabulary| && after.vocabulary[..|db.vocabulary|] == db.vocabulary
    && |db.quizQuestions| <= |after.quizQuestions| && after.quizQuestions[..|db.quizQuestions|] == db.quizQuestions
  }

  /** How the store answers: whether the read of the highest order index fails, and
      the error message, if any, each insert reports. */
  datatype Store = Store(
    orderReadFails: bool,
    lessonInsertError: LessonRow -> Option<string>,
    vocabularyInsertError: seq<VocabularyRow> -> Option<string>,
    quizInsertError: seq<QuizRow> -> Option<string>)

  /** Everything a run talks to; `stringify` is `JSON.stringify` on an options list. */
  datatype Services = Services(llm: Llm, store: Store, stringify: seq<string> -> string)

  predicate AllIndexed(lessons: seq<LessonRow>) {
    forall i :: 0 <= i < |lessons| ==> lessons[i].orderIndex.Some?
  }

  function MaxOrderIndex(lessons: seq<LessonRow>): (m: int)
    requires lessons != [] && AllIndexed(lessons)
    ensures forall i :: 0 <= i < |lessons| ==> lessons[i].orderIndex.value <= m
    ensures exists i :: 0 <= i < |lessons| && lessons[i].orderIndex.value == m
  {
    var last := lessons[|lessons| - 1].orderIndex.value;
    if |lessons| == 1 then last
    else
      var m := MaxOrderIndex(lessons[..|lessons| - 1]);
      if m < last then last else m
  }

  /** `select order_index order by order_index desc limit 1`, then `single()`, then
      `?.order_index`: no index when the table is empty (no row), and no index when
      some row has a null one, because PostgreSQL sorts nulls first in a descending
      order and the row read back is one whose `order_index` is null. */
  function TopOrderIndex(lessons: seq<LessonRow>): (r: Option<int>)
    ensures r.Some? <==> lessons != [] && AllIndexed(lessons)
    ensures r.Some? ==> forall i :: 0 <= i < |lessons| ==> lessons[i].orderIndex.value <= r.value
  {
    if lessons != [] && AllIndexed(lessons) then Some(MaxOrderIndex(lessons)) else None
  }

  /** `(maxOrderData?.order_index ?? 0) + 1`. */
  function NextOrderIndex(read: Option<int>): int {
    read.OrElse(0) + 1
  }

  function OrderIndexFor(store: Store, db: Db): int {
    NextOrderIndex(if store.orderReadFails then None else TopOrderIndex(db.lessons))
  }

  /** The row inserted for a generated lesson. */
  function LessonRowFor(store: Store, db: Db, lesson: Lesson): LessonRow {
    LessonRow(db.nextId, lesson.title, lesson.description, lesson.content, lesson.level, Some(OrderIndexFor(store, db)))
  }

  function VocabularyRows(lessonId: nat, items: seq<GeneratedVocabulary>): (rows: seq<VocabularyRow>)
    ensures |rows| == |items|
    ensures forall i :: 0 <= i < |items| ==>
      rows[i] == VocabularyRow(lessonId, items[i].word, items[i].frenchMeaning, items[i].exampleEn, items[i].exampleFr)
  {
    seq(|items|, i requires 0 <= i < |items| =>
      VocabularyRow(lessonId, items[i].word, items[i].frenchMeaning, items[i].exampleEn, items[i].exampleFr))
  }

  function QuizRows(lessonId: nat, questions: seq<GeneratedQuizQuestion>, stringify: seq<string> -> string): (rows: seq<QuizRow>)
    ensures |rows| == |questions|
    ensures forall i :: 0 <= i < |questions| ==>
      rows[i] == QuizRow(lessonId, questions[i].question, stringify(questions[i].options),
                         questions[i].correctAnswer, questions[i].explanation)
  {
    seq(|questions|, i requires 0 <= i < |questions| =>
      QuizRow(lessonId, questions[i].question, stringify(questions[i].options),
              questions[i].correctAnswer, questions[i].explanation))
  }

  function Words(items: seq<GeneratedVocabulary>): (words: seq<string>)
    ensures |words| == |items|
    ensures forall i :: 0 <= i < |items| ==> words[i] == items[i].word
  {
    seq(|items|, i requires 0 <= i < |items| => items[i].word)
  }

  /** The summary `generateCompleteLesson` returns (its `success` is always true). */
  datatype Summary = Summary(lessonId: nat, lesson: string, vocabularyCount: nat, quizCount: nat)

  datatype Run = Run(result: Result<Summary>, db: Db, prompts: seq<Prompt>)

  /** `generateCompleteLesson`: generate the lesson, insert it with the next order
      index, then generate and insert its vocabulary, then its quiz. The first error
      ends the run; rows already inserted stay. */
  function GenerateCompleteLesson(services: Services, db: Db, level: Level, topic: Option<string>): (run: Run)
    ensures run.prompts != [] && run.prompts[0] == LessonPrompt(level, PromptTopic(topic))
    ensures |db.lessons| <= |run.db.lessons| <= |db.lessons| + 1
    ensures run.result.Ok? ==> |run.db.lessons| == |db.lessons| + 1 && run.db.nextId == db.nextId + 1
  {
    var g := GenerateLesson(services.llm, level, topic);
    match g.result
    case Err(e) => Run(Err(e), db, g.prompts)
    case Ok(lesson) => InsertLessonStep(services, db, level, lesson, g.prompts)
  }

  /** Steps 2 and 3: read the highest order index, insert the lesson row, go on with
      its vocabulary. */
  function InsertLessonStep(services: Services, db: Db, level: Level, lesson: Lesson, prompts: seq<Prompt>): (run: Run)
    ensures |prompts| <= |run.prompts| <= |prompts| + 2
    ensures run.prompts[..|prompts|] == prompts
    ensures Extends(db, run.db) && |run.db.lessons| <= |db.lessons| + 1
    ensures |run.db.lessons| == |db.lessons| ==> run.db == db && run.result.Err?
    ensures |run.db.lessons| > |db.lessons| ==>
      run.db.lessons[|db.lessons|] == LessonRowFor(services.store, db, lesson) && run.db.nextId == db.nextId + 1
  {
    var row := LessonRowFor(services.store, db, lesson);
    match services.store.lessonInsertError(row)
    case Some(e) => Run(Err("Failed to insert lesson: " + e), db, prompts)
    case None =>
      VocabularyStep(services, db.(lessons := db.lessons + [row], nextId := db.nextId + 1), level, row.id, lesson.title, prompts)
  }

  /** Steps 4 and 5: generate the vocabulary, insert it tagged with the lesson, go on
      with the quiz. */
  function VocabularyStep(services: Services, db: Db, level: Level, lessonId: nat, title: string, prompts: seq<Prompt>): (run: Run)
    ensures |run.prompts| == |prompts| + 1 || |run.prompts| == |prompts| + 2
    ensures run.prompts[..|prompts| + 1] == prompts + [VocabularyPrompt(title, level, VocabularyTarget(level))]
    ensures |run.prompts| == |prompts| + 2 ==> run.prompts[|prompts| + 1].QuizPrompt?
    ensures Extends(db, run.db) && run.db.lessons == db.lessons && run.db.nextId == db.nextId
    ensures |run.prompts| == |prompts| + 1 ==> run.result.Err? && run.db == db
  {
    var count := VocabularyTarget(level);
    var prompts1 := prompts + [VocabularyPrompt(title, level, count)];
    match services.llm.vocabulary(title, level, count)
    case Err(e) => Run(Err(e), db, prompts1)
    case Ok(vocabulary) =>
      var rows := VocabularyRows(lessonId, vocabulary);
      match services.store.vocabularyInsertError(rows)
      case Some(e) => Run(Err("Failed to insert vocabulary: " + e), db, prompts1)
      case None => QuizStep(services, db.(vocabulary := db.vocabulary + rows), lessonId, title, vocabulary, prompts1)
  }

  /** Steps 6 and 7: generate the quiz from the vocabulary words, insert it tagged
      with the lesson, and summarise. */
  function QuizStep(services: Services, db: Db, lessonId: nat, title: string,
                    vocabulary: seq<GeneratedVocabulary>, prompts: seq<Prompt>): (run: Run)
    ensures run.prompts == prompts + [QuizPrompt(title, Words(vocabulary))]
    ensures Extends(db, run.db) && run.db.lessons == db.lessons && run.db.vocabulary == db.vocabulary && run.db.nextId == db.nextId
    ensures run.result.Err? ==> run.db == db
  {
    var words := Words(vocabulary);
    var prompts1 := prompts + [QuizPrompt(title, words)];
    match services.llm.quiz(title, words)
    case Err(e) => Run(Err(e), db, prompts1)
    case Ok(questions) =>
      var rows := QuizRows(lessonId, questions, services.stringify);
      match services.store.quizInsertError(rows)
      case Some(e) => Run(Err("Failed to insert quiz questions: " + e), db, prompts1)
      case None =>
        Run(Ok(Summary(lessonId, title, |vocabulary|, |questions|)), db.(quizQuestions := db.quizQuestions + rows), prompts1)
  }

  /** Each prompt belongs to a later pipeline stage than the one before it. */
  predicate StagesIncrease(prompts: seq<Prompt>) {
    forall i :: 0 < i < |prompts| ==> Stage(prompts[i - 1]) < Stage(prompts[i])
  }

  /** From the lesson insert on, the prompts keep stage order after a lesson-stage
      prefix, and the vocabulary prompt asks for the level's target count. */
  lemma InsertStepKeepsStageOrder(services: Services, db: Db, level: Level, lesson: Lesson, prompts: seq<Prompt>)
    requires |prompts| <= 2 && forall i :: 0 <= i < |prompts| ==> Stage(prompts[i]) == i
    ensures var run := InsertLessonStep(services, db, level, lesson, prompts);
      && StagesIncrease(run.prompts)
      && (forall i :: 0 <= i < |run.prompts| && run.prompts[i].VocabularyPrompt? ==>
            run.prompts[i].level == level && run.prompts[i].count == VocabularyTarget(level))
  {
    var run := InsertLessonStep(services, db, level, lesson, prompts);
    var n := |prompts|;
    assert n < |run.prompts| ==> run.prompts[n] == VocabularyPrompt(lesson.title, level, VocabularyTarget(level));
    assert n + 1 < |run.prompts| ==> run.prompts[n + 1].QuizPrompt?;
    forall i | 0 <= i < |run.prompts|
      ensures Stage(run.prompts[i]) == (if i < n then i else i - n + 2)
      ensures run.prompts[i].VocabularyPrompt? ==> i == n
    {
      if i < n {
        assert run.prompts[i] == run.prompts[..n][i];
      }
    }
  }

  /** Prompts go out in pipeline order, each kind at most once, starting with the
      lesson prompt; the vocabulary prompt asks for the level's target count. */
  lemma PromptsFollowPipelineOrder(services: Services, db: Db, level: Level, topic: Option<string>)
    ensures var run := GenerateCompleteLesson(services, db, level, topic);
      && run.prompts != []
      && run.prompts[0] == LessonPrompt(level, PromptTopic(topic))
      && StagesIncrease(run.prompts)
      && (forall i :: 0 <= i < |run.prompts| && run.prompts[i].VocabularyPrompt? ==>
            run.prompts[i].level == level && run.prompts[i].count == VocabularyTarget(level))
  {
    var g := GenerateLesson(services.llm, level, topic);
    assert forall i :: 0 <= i < |g.prompts| ==> Stage(g.prompts[i]) == i;
    if g.result.Ok? {
      InsertStepKeepsStageOrder(services, db, level, g.result.value, g.prompts);
    }
  }

  /** No step deletes or rewrites a row: each table only grows, by at most one lesson,
      and lesson identifiers stay below `nextId`. */
  lemma RunOnlyAppends(services: Services, db: Db, level: Level, topic: Option<string>)
    requires ValidDb(db)
    ensures var after := GenerateCompleteLesson(services, db, level, topic).db;
      && ValidDb(after)
      && |db.lessons| <= |after.lessons| <= |db.lessons| + 1
      && after.lessons[..|db.lessons|] == db.lessons
      && |db.vocabulary| <= |after.vocabulary| && after.vocabulary[..|db.vocabulary|] == db.vocabulary
      && |db.quizQuestions| <= |after.quizQuestions| && after.quizQuestions[..|db.quizQuestions|] == db.quizQuestions
  {
    var after := GenerateCompleteLesson(services, db, level, topic).db;
    assert after.lessons[..|db.lessons|] == db.lessons;
    assert after.vocabulary[..|db.vocabulary|] == db.vocabulary;
    assert after.quizQuestions[..|db.quizQuestions|] == db.quizQuestions;
  }

  /** A lesson the run inserts gets one more than the highest order index before it,
      1 on an empty table: it exceeds every existing index, as long as the read
      succeeded and every row has an index. */
  lemma NewOrderIndexExceedsExisting(services: Services, db: Db, level: Level, topic: Option<string>)
    requires !services.store.orderReadFails && AllIndexed(db.lessons)
    requires |GenerateCompleteLesson(services, db, level, topic).db.lessons| > |db.lessons|
    ensures var k := GenerateCompleteLesson(services, db, level, topic).db.lessons[|db.lessons|].orderIndex;
      && k.Some?
      && (forall i :: 0 <= i < |db.lessons| ==> db.lessons[i].orderIndex.value < k.value)
      && (db.lessons == [] ==> k.value == 1)
  {
  }

  /** A single row without an order index is the row the descending read returns,
      its `order_index` is null, and `?? 0` numbers the new lesson 1 again. */
  lemma NullOrderIndexRestartsNumbering(services: Services, db: Db, level: Level, topic: Option<string>)
    requires exists i :: 0 <= i < |db.lessons| && db.lessons[i].orderIndex.None?
    requires |GenerateCompleteLesson(services, db, level, topic).db.lessons| > |db.lessons|
    ensures GenerateCompleteLesson(services, db, level, topic).db.lessons[|db.lessons|].orderIndex == Some(1)
  {
  }

  /** A failed lesson insert ends the run before any vocabulary or quiz is asked for,
      with the store untouched. */
  lemma LessonInsertFailureStopsEarly(services: Services, db: Db, level: Level, topic: Option<string>, lesson: Lesson, e: string)
    requires GenerateLesson(services.llm, level, topic).result == Ok(lesson)
    requires services.store.lessonInsertError(LessonRowFor(services.store, db, lesson)) == Some(e)
    ensures var run := GenerateCompleteLesson(services, db, level, topic);
      && run.result == Err("Failed to insert lesson: " + e)
      && run.db == db
      && forall i :: 0 <= i < |run.prompts| ==> !run.prompts[i].VocabularyPrompt? && !run.prompts[i].QuizPrompt?
  {
  }

  /** A failed lesson generation ends the run at once with its error: nothing is
      written and neither the vocabulary nor the quiz is asked for. */
  lemma LessonGenerationFailureStopsEarly(services: Services, db: Db, level: Level, topic: Option<string>, e: string)
    requires GenerateLesson(services.llm, level, topic).result == Err(e)
    ensures var run := GenerateCompleteLesson(services, db, level, topic);
      && run.result == Err(e)
      && run.db == db
      && forall i :: 0 <= i < |run.prompts| ==> !run.prompts[i].VocabularyPrompt? && !run.prompts[i].QuizPrompt?
  {
    var g := GenerateLesson(services.llm, level, topic);
    assert forall i :: 0 <= i < |g.prompts| ==> g.prompts[i].LessonPrompt? || g.prompts[i].TranslationPrompt?;
  }

  /** A failed vocabulary generation ends the run with its error before the quiz is
      asked for; the lesson row already inserted stays, with no vocabulary or quiz
      rows behind it. */
  lemma VocabularyGenerationFailureKeepsLesson(services: Services, db: Db, level: Level, topic: Option<string>,
                                               lesson: Lesson, e: string)
    requires GenerateLesson(services.llm, level, topic).result == Ok(lesson)
    requires services.store.lessonInsertError(LessonRowFor(services.store, db, lesson)).None?
    requires services.llm.vocabulary(lesson.title, level, VocabularyTarget(level)) == Err(e)
    ensures var run := GenerateCompleteLesson(services, db, level, topic);
      && run.result == Err(e)
      && run.db.lessons == db.lessons + [LessonRowFor(services.store, db, lesson)]
      && run.db.vocabulary == db.vocabulary
      && run.db.quizQuestions == db.quizQuestions
      && forall i :: 0 <= i < |run.prompts| ==> !run.prompts[i].QuizPrompt?
  {
  }

  /** A failed vocabulary insert ends the run before the quiz is asked for; the lesson
      row already inserted stays, with no vocabulary or quiz rows behind it. */
  lemma VocabularyInsertFailureKeepsLesson(services: Services, db: Db, level: Level, topic: Option<string>,
                                           lesson: Lesson, vocabulary: seq<GeneratedVocabulary>, e: string)
    requires GenerateLesson(services.llm, level, topic).result == Ok(lesson)
    requires services.store.lessonInsertError(LessonRowFor(services.store, db, lesson)).None?
    requires services.llm.vocabulary(lesson.title, level, VocabularyTarget(level)) == Ok(vocabulary)
    requires services.store.vocabularyInsertError(VocabularyRows(db.nextId, vocabulary)) == Some(e)
    ensures var run := GenerateCompleteLesson(services, db, level, topic);
      && run.result == Err("Failed to insert vocabulary: " + e)
      && run.db.lessons == db.lessons + [LessonRowFor(services.store, db, lesson)]
      && run.db.vocabulary == db.vocabulary
      && run.db.quizQuestions == db.quizQuestions
      && forall i :: 0 <= i < |run.prompts| ==> !run.prompts[i].QuizPrompt?
  {
  }

  /** A failed quiz generation or quiz insert fails the run with the error's message
      (prefixed for the insert); the lesson row and the vocabulary rows already
      inserted stay, and no quiz row is added. */
  lemma QuizFailureKeepsLessonAndVocabulary(services: Services, db: Db, level: Level, topic: Option<string>,
                                            lesson: Lesson, vocabulary: seq<GeneratedVocabulary>)
    requires GenerateLesson(services.llm, level, topic).result == Ok(lesson)
    requires services.store.lessonInsertError(LessonRowFor(services.store, db, lesson)).None?
    requires services.llm.vocabulary(lesson.title, level, VocabularyTarget(level)) == Ok(vocabulary)
    requires services.store.vocabularyInsertError(VocabularyRows(db.nextId, vocabulary)).None?
    ensures var run := GenerateCompleteLesson(services, db, level, topic);
      var quiz := services.llm.quiz(lesson.title, Words(vocabulary));
      && (quiz.Err? ==> run.result == Err(quiz.message))
      && (quiz.Ok? && services.store.quizInsertError(QuizRows(db.nextId, quiz.value, services.stringify)).Some? ==>
            run.result == Err("Failed to insert quiz questions: "
                              + services.store.quizInsertError(QuizRows(db.nextId, quiz.value, services.stringify)).value))
      && (run.result.Err? ==>
            && run.db.lessons == db.lessons + [LessonRowFor(services.store, db, lesson)]
            && run.db.vocabulary == db.vocabulary + VocabularyRows(db.nextId, vocabulary)
            && run.db.quizQuestions == db.quizQuestions)
  {
  }

  /** On success the new lesson carries a fresh identifier, the requested level and
      the summary's title; every vocabulary and quiz row added is tagged with it, in
      the order generated, quiz options stringified; the counts are the list lengths. */
  lemma SuccessfulRunRecordsEverything(services: Services, db: Db, level: Level, topic: Option<string>)
    requires ValidDb(db)
    requires GenerateCompleteLesson(services, db, level, topic).result.Ok?
    ensures var run := GenerateCompleteLesson(services, db, level, topic);
      var s := run.result.value;
      var vocabulary := services.llm.vocabulary(s.lesson, level, VocabularyTarget(level));
      && (forall i :: 0 <= i < |db.lessons| ==> db.lessons[i].id != s.lessonId)
      && |run.db.lessons| == |db.lessons| + 1
      && run.db.lessons[|db.lessons|].id == s.lessonId
      && run.db.lessons[|db.lessons|].title == s.lesson
      && run.db.lessons[|db.lessons|].level == level
      && vocabulary.Ok?
      && s.vocabularyCount == |vocabulary.value|
      && run.db.vocabulary == db.vocabulary + VocabularyRows(s.lessonId, vocabulary.value)
      && var quiz := services.llm.quiz(s.lesson, Words(vocabulary.value));
      && quiz.Ok?
      && s.quizCount == |quiz.value|
      && run.db.quizQuestions == db.quizQuestions + QuizRows(s.lessonId, quiz.value, services.stringify)
  {
  }

  /** After a successful run on a fully numbered table, the table stays fully
      numbered and its highest index is the one just assigned. */
  lemma SuccessfulRunContinuesNumbering(services: Services, db: Db, level: Level, topic: Option<string>)
    requires !services.store.orderReadFails && AllIndexed(db.lessons)
    requires GenerateCompleteLesson(services, db, level, topic).result.Ok?
    ensures var after := GenerateCompleteLesson(services, db, level, topic).db;
      && AllIndexed(after.lessons)
      && TopOrderIndex(after.lessons) == Some(NextOrderIndex(TopOrderIndex(db.lessons)))
  {
    var after := GenerateCompleteLesson(services, db, level, topic).db;
    var k := NextOrderIndex(TopOrderIndex(db.lessons));
    assert after.lessons == db.lessons + [after.lessons[|db.lessons|]];
    assert after.lessons[|db.lessons|].orderIndex == Some(k);
    if db.lessons != [] {
      assert after.lessons[..|after.lessons| - 1] == db.lessons;
    }
  }

  /** `after` holds the lessons of `db` followed by one new row, under the next
      identifier and the order index after the highest one in `db`. */
  predicate AppendsNumberedRow(db: Db, after: Db) {
    && |after.lessons| == |db.lessons| + 1 && after.lessons[..|db.lessons|] == db.lessons
    && after.lessons[|db.lessons|].id == db.nextId
    && after.lessons[|db.lessons|].orderIndex == Some(NextOrderIndex(TopOrderIndex(db.lessons)))
    && after.nextId == db.nextId + 1
  }

  /** When the order read succeeds, a successful run appends exactly one row, under
      the next identifier and the next order index. */
  lemma SuccessfulRunAppendsRow(services: Services, db: Db, level: Level, topic: Option<string>)
    requires !services.store.orderReadFails
    requires GenerateCompleteLesson(services, db, level, topic).result.Ok?
    ensures AppendsNumberedRow(db, GenerateCompleteLesson(services, db, level, topic).db)
  {
  }

  /** Three numbered appends onto an empty lesson table give the order indexes
      1, 2, 3 and three distinct identifiers. */
  lemma {:induction false} NumberedAppendsFromEmpty(db: Db, db1: Db, db2: Db, db3: Db)
    requires db.lessons == []
    requires AppendsNumberedRow(db, db1) && AppendsNumberedRow(db1, db2) && AppendsNumberedRow(db2, db3)
    ensures |db3.lessons| == 3
    ensures db3.lessons[0].orderIndex == Some(1)
    ensures db3.lessons[1].orderIndex == Some(2)
    ensures db3.lessons[2].orderIndex == Some(3)
    ensures db3.lessons[0].id != db3.lessons[1].id
    ensures db3.lessons[1].id != db3.lessons[2].id
    ensures db3.lessons[0].id != db3.lessons[2].id
  {
    var r1, r2, r3 := db1.lessons[0], db2.lessons[1], db3.lessons[2];
    assert db1.lessons == [r1];
    assert TopOrderIndex(db1.lessons) == Some(1);
    assert db2.lessons == [r1, r2];
    assert TopOrderIndex(db2.lessons) == Some(2);
    assert db3.lessons == [r1, r2, r3];
  }

  /** Three successful runs in a row on an empty lesson table number the lessons
      1, 2, 3, each with its own identifier. */
  lemma ThreeRunsNumberOneTwoThree(services: Services, db: Db, levels: seq<Level>, topic: Option<string>)
    requires |levels| == 3 && db.lessons == [] && !services.store.orderReadFails
    requires GenerateCompleteLesson(services, db, levels[0], topic).result.Ok?
    requires var db1 := GenerateCompleteLesson(services, db, levels[0], topic).db;
      GenerateCompleteLesson(services, db1, levels[1], topic).result.Ok?
    requires var db1 := GenerateCompleteLesson(services, db, levels[0], topic).db;
      var db2 := GenerateCompleteLesson(services, db1, levels[1], topic).db;
      GenerateCompleteLesson(services, db2, levels[2], topic).result.Ok?
    ensures var db1 := GenerateCompleteLesson(services, db, levels[0], topic).db;
      var db2 := GenerateCompleteLesson(services, db1, levels[1], topic).db;
      var db3 := GenerateCompleteLesson(services, db2, levels[2], topic).db;
      && |db3.lessons| == 3
      && db3.lessons[0].orderIndex == Some(1)
      && db3.lessons[1].orderIndex == Some(2)
      && db3.lessons[2].orderIndex == Some(3)
      && db3.lessons[0].id != db3.lessons[1].id
      && db3.lessons[1].id != db3.lessons[2].id
      && db3.lessons[0].id != db3.lessons[2].id
  {
    var db1 := GenerateCompleteLesson(services, db, levels[0], topic).db;
    var db2 := GenerateCompleteLesson(services, db1, levels[1], topic).db;
    SuccessfulRunAppendsRow(services, db, levels[0], topic);
    SuccessfulRunAppendsRow(services, db1, levels[1], topic);
    SuccessfulRunAppendsRow(services, db2, levels[2], topic);
    NumberedAppendsFromEmpty(db, db1, db2, GenerateCompleteLesson(services, db2, levels[2], topic).db);
  }
}

=== FILE: dailycronroute.dfy ===
/** The `GET` handler of src/app/api/cron/generate-daily/route.ts: a shared-secret
    check, then one lesson per daily level, each attempted whatever became of the
    one before. */
module DailyCronRoute {
  import opened Results
  import opened Text
  import opened ContentGenerator

  const DevelopmentSecret := "dev-secret"

  /** `process.env.CRON_SECRET || 'dev-secret'`: an unset or empty variable falls back. */
  function CronSecret(env: Option<string>): (secret: string)
    ensures secret != []
    ensures env.Some? && env.value != [] ==> secret == env.value
    ensures env.None? || env.value == [] ==> secret == DevelopmentSecret
  {
    if env.Some? && env.value != [] then env.value else DevelopmentSecret
  }

  /** The `Authorization` header must be exactly `Bearer <secret>`. */
  predicate Authorized(header: Option<string>, env: Option<string>) {
    header == Some("Bearer " + CronSecret(env))
  }

  /** The levels generated each day, in order. */
  const DailyLevels: seq<Level> := [Beginner, Intermediate]

  /** One entry of the response's `results` array. */
  datatype LevelResult =
    | LevelSucceeded(level: Level, summary: Summary)
    | LevelFailed(level: Level, error: string)

  datatype CronResponse =
    | Unauthorized
    | Completed(message: string, results: seq<LevelResult>)

  /** The `results` entry for one level's run. */
  function LevelOutcome(level: Level, run: Run): (r: LevelResult)
    ensures r.level == level
    ensures r.LevelSucceeded? <==> run.result.Ok?
    ensures r.LevelSucceeded? ==> r.summary == run.result.value
    ensures r.LevelFailed? ==> r.error == run.result.message
  {
    match run.result
    case Ok(summary) => LevelSucceeded(level, summary)
    case Err(e) => LevelFailed(level, e)
  }

  /** `results.filter(r => r.success).length`. */
  function SuccessCount(results: seq<LevelResult>): (n: nat)
    ensures n <= |results|
    ensures n == |results| <==> forall i :: 0 <= i < |results| ==> results[i].LevelSucceeded?
  {
    if results == [] then 0
    else SuccessCount(results[..|results| - 1]) + (if results[|results| - 1].LevelSucceeded? then 1 else 0)
  }

  /** Counting the successes of two result lists one after the other adds their
      counts, so each level's entry adds its own success to the reported total. */
  lemma {:induction false} SuccessCountAdds(a: seq<LevelResult>, b: seq<LevelResult>)
    ensures SuccessCount(a + b) == SuccessCount(a) + SuccessCount(b)
  {
    if b == [] {
      assert a + b == a;
    } else {
      var init := b[..|b| - 1];
      SuccessCountAdds(a, init);
      assert (a + b)[..|a + b| - 1] == a + init;
    }
  }

  function CompletionMessage(successes: nat, total: nat): string {
    "Daily content generation complete: " + NatToString(successes) + "/" + NatToString(total) + " lessons created"
  }

  /** Everything the loop has produced after attempting some levels. */
  datatype Batch = Batch(results: seq<LevelResult>, db: Db, prompts: seq<Prompt>)

  /** A lesson pipeline run on a store for a level. */
  type Pipeline = (Db, Level) -> Run

  /** What the cron calls for each level: `generateCompleteLesson(level, undefined, supabase)`. */
  function DailyPipeline(services: Services): Pipeline {
    (d: Db, level: Level) => GenerateCompleteLesson(services, d, level, None)
  }

  /** One iteration of the loop: attempt `level` on the store the batch left. */
  function Attempt(pipeline: Pipeline, batch: Batch, level: Level): (b: Batch)
    ensures |b.results| == |batch.results| + 1 && b.results[..|batch.results|] == batch.results
    ensures b.results[|batch.results|] == LevelOutcome(level, pipeline(batch.db, level))
    ensures b.db == pipeline(batch.db, level).db
  {
    var run := pipeline(batch.db, level);
    Batch(batch.results + [LevelOutcome(level, run)], run.db, batch.prompts + run.prompts)
  }

  /** Reference definition of the loop: run the levels in order, each on the store the
      previous run left. */
  function RunLevels(pipeline: Pipeline, db: Db, levels: seq<Level>): (b: Batch)
    ensures |b.results| == |levels|
    ensures forall i :: 0 <= i < |levels| ==> b.results[i].level == levels[i]
  {
    if levels == [] then Batch([], db, [])
    else Attempt(pipeline, RunLevels(pipeline, db, levels[..|levels| - 1]), levels[|levels| - 1])
  }

  /** Two levels: the second run starts from the store the first one left. */
  lemma {:induction false} RunTwoLevels(pipeline: Pipeline, db: Db, levels: seq<Level>)
    requires |levels| == 2
    ensures var first := pipeline(db, levels[0]);
      var second := pipeline(first.db, levels[1]);
      RunLevels(pipeline, db, levels)
        == Batch([LevelOutcome(levels[0], first), LevelOutcome(levels[1], second)], second.db, first.prompts + second.prompts)
  {
    var one := levels[..1];
    assert one[..0] == [];
    assert RunLevels(pipeline, db, one) == Attempt(pipeline, Batch([], db, []), levels[0]);
    assert RunLevels(pipeline, db, levels) == Attempt(pipeline, RunLevels(pipeline, db, one), levels[1]);
  }

  /** `GET /api/cron/generate-daily`. */
  method DailyGenerate(header: Option<string>, env: Option<string>, services: Services, db: Db)
    returns (response: CronResponse, after: Db, prompts: seq<Prompt>)
    ensures !Authorized(header, env) ==> response == Unauthorized && after == db && prompts == []
    ensures Authorized(header, env) ==>
      var first := DailyPipeline(services)(db, Beginner);
      var second := DailyPipeline(services)(first.db, Intermediate);
      var results := [LevelOutcome(Beginner, first), LevelOutcome(Intermediate, second)];
      && response == Completed(CompletionMessage(SuccessCount(results), 2), results)
      && after == second.db
      && prompts == first.prompts + second.prompts
  {
    if !Authorized(header, env) {
      return Unauthorized, db, [];
    }
    var pipeline := DailyPipeline(services);
    var results;
    results, after, prompts := RunDailyLevels(pipeline, db);
    RunTwoLevels(pipeline, db, DailyLevels);
    response := Completed(CompletionMessage(SuccessCount(results), |DailyLevels|), results);
  }

  /** The `for` loop over the daily levels: each level is attempted in order on the
      store the previous attempt left, and its prompts are appended. */
  method RunDailyLevels(pipeline: Pipeline, db: Db)
    returns (results: seq<LevelResult>, after: Db, prompts: seq<Prompt>)
    ensures RunLevels(pipeline, db, DailyLevels) == Batch(results, after, prompts)
  {
    results, after, prompts := [], db, [];
    var i := 0;
    while i < |DailyLevels|
      invariant 0 <= i <= |DailyLevels|
      invariant RunLevels(pipeline, db, DailyLevels[..i]) == Batch(results, after, prompts)
    {
      var level := DailyLevels[i];
      var run := pipeline(after, level);
      assert DailyLevels[..i + 1][..i] == DailyLevels[..i];
      assert RunLevels(pipeline, db, DailyLevels[..i + 1]) == Attempt(pipeline, Batch(results, after, prompts), level);
      results := results + [LevelOutcome(level, run)];
      after := run.db;
      prompts := prompts + run.prompts;
      i := i + 1;
    }
    assert DailyLevels[..i] == DailyLevels;
  }

  /** At most two lessons a day: the reported successes never exceed the levels tried. */
  lemma AtMostTwoLessonsADay(pipeline: Pipeline, db: Db)
    ensures SuccessCount(RunLevels(pipeline, db, DailyLevels).results) <= 2
  {
  }

  /** A failure at the beginner level does not prevent the intermediate lesson, which
      runs on whatever the failed run left in the store. */
  lemma BeginnerFailureStillTriesIntermediate(pipeline: Pipeline, db: Db)
    requires pipeline(db, Beginner).result.Err?
    ensures var b := RunLevels(pipeline, db, DailyLevels);
      && b.results[0] == LevelFailed(Beginner, pipeline(db, Beginner).result.message)
      && b.results[1] == LevelOutcome(Intermediate, pipeline(pipeline(db, Beginner).db, Intermediate))
  {
    RunTwoLevels(pipeline, db, DailyLevels);
  }

  /** Two failed levels still complete the run: the response reports no lesson
      created rather than an error. */
  lemma BothFailedStillCompletes(pipeline: Pipeline, db: Db)
    requires pipeline(db, Beginner).result.Err?
    requires pipeline(pipeline(db, Beginner).db, Intermediate).result.Err?
    ensures var b := RunLevels(pipeline, db, DailyLevels);
      SuccessCount(b.results) == 0 && |b.results| == 2
  {
    RunTwoLevels(pipeline, db, DailyLevels);
  }

  /** The cron passes no topic, so each daily lesson is asked for on the default one. */
  lemma DailyLessonsUseDefaultTopic(services: Services, db: Db, level: Level)
    ensures var run := DailyPipeline(services)(db, level);
      run.prompts != [] && run.prompts[0] == LessonPrompt(level, DefaultTopic)
  {
    PromptsFollowPipelineOrder(services, db, level, None);
  }
}

=== FILE: frenchheuristic.dfy ===
/** The language check `looksLikeFrench` of src/lib/contentGenerator.ts: a lesson's
    title and description must be French, and this stopword heuristic decides when
    the generator asks for a translation. */
module FrenchHeuristic {
  import opened Text

  const FrenchStopwords: set<string> := {
    "le", "la", "les", "un", "une", "des", "de", "du", "au", "aux", "pour", "avec",
    "sans", "et", "ou", "est", "sont", "dans", "sur", "par", "que", "qui", "ce",
    "cette", "ces", "vous", "nous", "votre", "notre", "apprenez", "apprendre",
    "maitriser", "maitrisez", "anglais", "niveau", "lecon", "lecons", "vocabulaire"
  }

  const EnglishStopwords: set<string> := {
    "the", "and", "with", "in", "we", "you", "your", "our", "this", "that", "is",
    "are", "to", "of", "for", "on", "from", "learn", "learning", "lesson", "lessons",
    "english", "level", "vocabulary"
  }

  /** The class `[àâçéèêëîïôûùüÿœ]`. */
  predicate IsAccent(c: char) {
    || c == '\U{00E0}' || c == '\U{00E2}' || c == '\U{00E7}' || c == '\U{00E9}'
    || c == '\U{00E8}' || c == '\U{00EA}' || c == '\U{00EB}' || c == '\U{00EE}'
    || c == '\U{00EF}' || c == '\U{00F4}' || c == '\U{00FB}' || c == '\U{00F9}'
    || c == '\U{00FC}' || c == '\U{00FF}' || c == '\U{0153}'
  }

  /** The class `[a-zàâçéèêëîïôûùüÿœ]`. */
  predicate IsWordChar(c: char) {
    ('a' <= c <= 'z') || IsAccent(c)
  }

  predicate IsToken(t: string) {
    t != [] && forall i :: 0 <= i < |t| ==> IsWordChar(t[i])
  }

  /** The longest prefix of word characters. */
  function LeadingWord(s: string): (w: string)
    ensures |w| <= |s| && w == s[..|w|]
    ensures forall i :: 0 <= i < |w| ==> IsWordChar(w[i])
    ensures |w| < |s| ==> !IsWordChar(s[|w|])
  {
    if s != [] && IsWordChar(s[0]) then [s[0]] + LeadingWord(s[1..]) else []
  }

  /** `s.match(/[a-zàâçéèêëîïôûùüÿœ]+/g) || []`: the maximal runs of word characters,
      left to right. */
  function Tokens(s: string): (ts: seq<string>)
    ensures forall k :: 0 <= k < |ts| ==> IsToken(ts[k])
    decreases |s|
  {
    if s == [] then []
    else
      var w := LeadingWord(s);
      if w == [] then Tokens(s[1..]) else [w] + Tokens(s[|w|..])
  }

  /** The text before a non-word character does not reach past it. */
  lemma {:induction false} LeadingWordStopsAtSeparator(a: string, c: char, b: string)
    requires !IsWordChar(c)
    ensures LeadingWord(a + [c] + b) == LeadingWord(a)
  {
    if a != [] && IsWordChar(a[0]) {
      assert (a + [c] + b)[1..] == a[1..] + [c] + b;
      LeadingWordStopsAtSeparator(a[1..], c, b);
    }
  }

  /** Tokenising is compositional across a separator: the tokens of `a c b` are those
      of `a` followed by those of `b` when `c` is not a word character. */
  lemma {:induction false} TokensSplitAtSeparator(a: string, c: char, b: string)
    requires !IsWordChar(c)
    ensures Tokens(a + [c] + b) == Tokens(a) + Tokens(b)
    decreases |a|
  {
    var s := a + [c] + b;
    if a == [] {
      assert s[1..] == b;
    } else {
      LeadingWordStopsAtSeparator(a, c, b);
      var w := LeadingWord(a);
      if w == [] {
        assert s[1..] == a[1..] + [c] + b;
        TokensSplitAtSeparator(a[1..], c, b);
      } else {
        assert s[|w|..] == a[|w|..] + [c] + b;
        TokensSplitAtSeparator(a[|w|..], c, b);
      }
    }
  }

  /** A single run of word characters is one token. */
  lemma {:induction false} TokensOfWord(t: string)
    requires IsToken(t)
    ensures Tokens(t) == [t]
  {
    WholeLeadingWord(t);
    assert t[|t|..] == [];
    assert Tokens(t) == [t] + Tokens(t[|t|..]);
  }

  lemma {:induction false} WholeLeadingWord(t: string)
    requires forall i :: 0 <= i < |t| ==> IsWordChar(t[i])
    ensures LeadingWord(t) == t
  {
    if t != [] {
      WholeLeadingWord(t[1..]);
    }
  }

  /** A text without word characters has no tokens, and one with a word character has one. */
  lemma {:induction false} TokensEmptyIffNoWordChar(s: string)
    ensures Tokens(s) == [] <==> forall i :: 0 <= i < |s| ==> !IsWordChar(s[i])
    decreases |s|
  {
    if s != [] {
      var w := LeadingWord(s);
      if w == [] {
        TokensEmptyIffNoWordChar(s[1..]);
        assert forall i :: 1 <= i < |s| ==> s[i] == s[1..][i - 1];
      }
    }
  }

  /** How many tokens are in `stopwords`. */
  function Hits(tokens: seq<string>, stopwords: set<string>): (n: nat)
    ensures n <= |tokens|
  {
    if tokens == [] then 0
    else Hits(tokens[..|tokens| - 1], stopwords) + (if tokens[|tokens| - 1] in stopwords then 1 else 0)
  }

  /** The English stopwords in three groups, none of which meets the French list. */
  const EnglishGroupA: set<string> := {"the", "and", "with", "in", "we", "you", "your", "our"}
  const EnglishGroupB: set<string> := {"this", "that", "is", "are", "to", "of", "for", "on"}
  const EnglishGroupC: set<string> := {"from", "learn", "learning", "lesson", "lessons", "english", "level", "vocabulary"}

  lemma GroupADisjoint() ensures EnglishGroupA !! FrenchStopwords {}
  lemma GroupBDisjoint() ensures EnglishGroupB !! FrenchStopwords {}
  lemma GroupCDisjoint() ensures EnglishGroupC !! FrenchStopwords {}

  lemma StopwordListsDisjoint()
    ensures FrenchStopwords !! EnglishStopwords
  {
    assert EnglishStopwords == EnglishGroupA + EnglishGroupB + EnglishGroupC;
    GroupADisjoint();
    GroupBDisjoint();
    GroupCDisjoint();
  }

  /** Because the lists are disjoint, a token counts for at most one language. */
  lemma {:induction false} HitsShareTokens(tokens: seq<string>)
    ensures Hits(tokens, FrenchStopwords) + Hits(tokens, EnglishStopwords) <= |tokens|
  {
    if tokens != [] {
      StopwordListsDisjoint();
      HitsShareTokens(tokens[..|tokens| - 1]);
    }
  }

  /** The counting loop of `looksLikeFrench`: one pass over the tokens, each token
      tested against both lists. */
  method CountStopwordHits(tokens: seq<string>) returns (frenchHits: nat, englishHits: nat)
    ensures frenchHits == Hits(tokens, FrenchStopwords)
    ensures englishHits == Hits(tokens, EnglishStopwords)
    ensures frenchHits + englishHits <= |tokens|
  {
    frenchHits, englishHits := 0, 0;
    var i := 0;
    while i < |tokens|
      invariant i <= |tokens|
      invariant frenchHits == Hits(tokens[..i], FrenchStopwords)
      invariant englishHits == Hits(tokens[..i], EnglishStopwords)
    {
      assert tokens[..i + 1][..i] == tokens[..i];
      if tokens[i] in FrenchStopwords {
        frenchHits := frenchHits + 1;
      }
      if tokens[i] in EnglishStopwords {
        englishHits := englishHits + 1;
      }
      i := i + 1;
    }
    assert tokens[..i] == tokens;
    HitsShareTokens(tokens);
  }

  /** `/[àâçéèêëîïôûùüÿœ]/i.test(text)`: an accented letter in either case. */
  predicate HasAccents(text: string) {
    exists i :: 0 <= i < |text| && IsAccent(LowerChar(text[i]))
  }

  function FrenchHits(text: string): nat {
    Hits(Tokens(ToLower(text)), FrenchStopwords)
  }

  function EnglishHits(text: string): nat {
    Hits(Tokens(ToLower(text)), EnglishStopwords)
  }

  /** `looksLikeFrench`: French when accented, when two French stopwords occur, or
      when French stopwords outnumber English ones while those stay below two. */
  function LooksLikeFrench(text: string): (french: bool)
    ensures french <==> HasAccents(text) || FrenchHits(text) >= 2
                        || (EnglishHits(text) < 2 && FrenchHits(text) > EnglishHits(text))
  {
    var french := FrenchHits(text) + (if HasAccents(text) then 2 else 0);
    var english := EnglishHits(text);
    if french >= 2 then true
    else if english >= 2 then false
    else french > english
  }

  lemma AccentedTextLooksFrench(text: string)
    requires HasAccents(text)
    ensures LooksLikeFrench(text)
  {
  }

  lemma FrenchStopwordsDecide(text: string)
    requires FrenchHits(text) >= 2
    ensures LooksLikeFrench(text)
  {
  }

  lemma EnglishStopwordsReject(text: string)
    requires !HasAccents(text) && FrenchHits(text) < 2 && EnglishHits(text) >= 2
    ensures !LooksLikeFrench(text)
  {
  }

  /** Without accents the decision is on stopwords alone: two French hits win, and
      otherwise the French hits must outnumber the English ones while those stay
      below two; a tie below two, the empty text included, is not French. */
  lemma UnaccentedDecision(text: string)
    requires !HasAccents(text)
    ensures LooksLikeFrench(text) <==>
            FrenchHits(text) >= 2 || (EnglishHits(text) < 2 && FrenchHits(text) > EnglishHits(text))
    ensures FrenchHits(text) == EnglishHits(text) < 2 ==> !LooksLikeFrench(text)
  {
  }

  lemma EmptyTextIsNotFrench()
    ensures !LooksLikeFrench("")
  {
    assert ToLower("") == "";
    assert !HasAccents("");
  }

  lemma EnglishTitleLowered(title: string)
    requires title == "The Lesson"
    ensures ToLower(title) == "the" + [' '] + "lesson"
  {
    var lower := "the" + [' '] + "lesson";
    forall i | 0 <= i < |title|
      ensures ToLower(title)[i] == lower[i]
    {
    }
  }

  /** Two words separated by one non-word character tokenise into those two words. */
  lemma TwoWordTokens(a: string, b: string, sep: char)
    requires IsToken(a) && IsToken(b) && !IsWordChar(sep)
    ensures Tokens(a + [sep] + b) == [a, b]
  {
    TokensSplitAtSeparator(a, sep, b);
    TokensOfWord(a);
    TokensOfWord(b);
  }

  lemma EnglishTitleTokens(title: string)
    requires title == "The Lesson"
    ensures Tokens(ToLower(title)) == ["the", "lesson"]
  {
    EnglishTitleLowered(title);
    TwoWordTokens("the", "lesson", ' ');
  }

  lemma HitsOfTwo(a: string, b: string, stopwords: set<string>)
    ensures Hits([a, b], stopwords) == (if a in stopwords then 1 else 0) + (if b in stopwords then 1 else 0)
  {
    assert [a, b][..1] == [a];
    assert [a][..0] == [];
  }

  /** Both words of the example title are English stopwords, so neither is French. */
  lemma EnglishTitleHits(tokens: seq<string>)
    requires tokens == ["the", "lesson"]
    ensures Hits(tokens, EnglishStopwords) == 2
    ensures Hits(tokens, FrenchStopwords) == 0
  {
    assert "the" in EnglishGroupA && "lesson" in EnglishGroupC;
    StopwordListsDisjoint();
    HitsOfTwo("the", "lesson", EnglishStopwords);
    HitsOfTwo("the", "lesson", FrenchStopwords);
  }

  lemma EnglishTitleHasNoAccents(title: string)
    requires title == "The Lesson"
    ensures !HasAccents(title)
  {
    forall i | 0 <= i < |title|
      ensures !IsAccent(LowerChar(title[i]))
    {
    }
  }

  /** A title made of unaccented English words fails the check, so the generator
      asks for a translation. */
  lemma EnglishTitleIsNotFrench(title: string)
    requires title == "The Lesson"
    ensures !LooksLikeFrench(title)
  {
    EnglishTitleTokens(title);
    EnglishTitleHasNoAccents(title);
    EnglishTitleHits(Tokens(ToLower(title)));
  }

  /** A title with an accented letter passes the check whatever its words. */
  lemma AccentedTitleIsFrench(title: string)
    requires title == "D\U{00E9}couvrir les voyages"
    ensures LooksLikeFrench(title)
  {
    assert IsAccent(LowerChar(title[1]));
  }
}

=== FILE: generatecontentroute.dfy ===
/** The `POST` handler of src/app/api/generate-content/route.ts as a decision
    procedure: validate the level, check the caller is signed in, run the pipeline,
    and answer 201, 400, 401 or 500. */
module GenerateContentRoute {
  import opened Results
  import opened ContentGenerator

  /** The `level` member of the request body: absent, a string, or any other JSON value. */
  datatype LevelField = LevelMissing | LevelText(text: string) | LevelOther

  datatype RequestBody = RequestBody(level: LevelField, topic: Option<string>)

  /** What `supabase.auth.getUser()` answered: an error and/or the signed-in user's id. */
  datatype AuthAnswer = AuthAnswer(error: Option<string>, user: Option<string>)

  datatype Payload =
    | ErrorPayload(error: string)
    | FailurePayload(error: string)
    | CreatedPayload(message: string, data: Summary)

  datatype Response = Response(status: nat, payload: Payload)

  /** The response, the store afterwards, and the prompts the pipeline sent. */
  datatype Outcome = Outcome(response: Response, db: Db, prompts: seq<Prompt>)

  const InvalidLevelMessage := "Invalid level. Must be beginner, intermediate, or advanced."
  const UnauthorizedMessage := "Unauthorized. Please log in."
  const CreatedMessage := "Lesson generated successfully"

  /** `const { level = 'beginner' } = body`, then the membership check: the default
      applies only to an absent member. */
  function RequestedLevel(field: LevelField): Option<Level> {
    match field
    case LevelMissing => Some(Beginner)
    case LevelText(s) => ParseLevel(s)
    case LevelOther => None
  }

  predicate Authenticated(auth: AuthAnswer) {
    auth.error.None? && auth.user.Some?
  }

  /** `POST /api/generate-content`; `body` is `Err` when reading the JSON body threw. */
  function Post(body: Result<RequestBody>, auth: AuthAnswer, services: Services, db: Db): (out: Outcome)
    ensures out.response.status in {201, 400, 401, 500}
    ensures out.response.status == 201 <==> out.response.payload.CreatedPayload?
    ensures out.response.status != 201 && out.response.status != 500 ==> out.db == db && out.prompts == []
    ensures body.Err? ==> out == Outcome(Response(500, FailurePayload(body.message)), db, [])
  {
    match body
    case Err(e) => Outcome(Response(500, FailurePayload(e)), db, [])
    case Ok(b) =>
      match RequestedLevel(b.level)
      case None => Outcome(Response(400, ErrorPayload(InvalidLevelMessage)), db, [])
      case Some(level) =>
        if !Authenticated(auth) then Outcome(Response(401, ErrorPayload(UnauthorizedMessage)), db, [])
        else
          var run := GenerateCompleteLesson(services, db, level, b.topic);
          match run.result
          case Ok(summary) => Outcome(Response(201, CreatedPayload(CreatedMessage, summary)), run.db, run.prompts)
          case Err(e) => Outcome(Response(500, FailurePayload(e)), run.db, run.prompts)
  }

  /** A body that cannot be read answers 500 with the read's message, whatever the
      credentials, before any generation. */
  lemma UnreadableBodyAnswers500(message: string, auth: AuthAnswer, other: AuthAnswer, services: Services, db: Db)
    ensures Post(Err(message), auth, services, db) == Post(Err(message), other, services, db)
    ensures Post(Err(message), auth, services, db).response == Response(500, FailurePayload(message))
    ensures Post(Err(message), auth, services, db).db == db && Post(Err(message), auth, services, db).prompts == []
  {
  }

  /** A body without `level` generates a beginner lesson. */
  lemma MissingLevelMeansBeginner(b: RequestBody, auth: AuthAnswer, services: Services, db: Db)
    requires b.level.LevelMissing? && Authenticated(auth)
    ensures var out := Post(Ok(b), auth, services, db);
      var run := GenerateCompleteLesson(services, db, Beginner, b.topic);
      out.db == run.db && out.prompts == run.prompts
  {
  }

  /** A level outside the three answers 400 whatever the credentials, before any
      generation. */
  lemma InvalidLevelRejectedBeforeAuth(b: RequestBody, auth: AuthAnswer, other: AuthAnswer, services: Services, db: Db)
    requires RequestedLevel(b.level).None?
    ensures Post(Ok(b), auth, services, db) == Post(Ok(b), other, services, db)
    ensures Post(Ok(b), auth, services, db) == Outcome(Response(400, ErrorPayload(InvalidLevelMessage)), db, [])
  {
  }

  /** An authentication error or no user answers 401 and generates nothing. */
  lemma UnauthenticatedGeneratesNothing(b: RequestBody, auth: AuthAnswer, services: Services, db: Db)
    requires RequestedLevel(b.level).Some? && !Authenticated(auth)
    ensures Post(Ok(b), auth, services, db) == Outcome(Response(401, ErrorPayload(UnauthorizedMessage)), db, [])
  {
  }

  /** 201 exactly when the pipeline succeeded for an authenticated valid request; the
      payload is the pipeline's summary, and the topic reached the lesson prompt. */
  lemma CreatedCarriesPipelineSummary(b: RequestBody, auth: AuthAnswer, services: Services, db: Db)
    ensures var out := Post(Ok(b), auth, services, db);
      out.response.status == 201 <==>
        && RequestedLevel(b.level).Some? && Authenticated(auth)
        && GenerateCompleteLesson(services, db, RequestedLevel(b.level).value, b.topic).result.Ok?
    ensures var out := Post(Ok(b), auth, services, db);
      out.response.status == 201 ==>
        var level := RequestedLevel(b.level).value;
        && out.response.payload.data == GenerateCompleteLesson(services, db, level, b.topic).result.value
        && out.prompts[0] == LessonPrompt(level, PromptTopic(b.topic))
  {
    if RequestedLevel(b.level).Some? && Authenticated(auth) {
      PromptsFollowPipelineOrder(services, db, RequestedLevel(b.level).value, b.topic);
    }
  }

  /** Any error the pipeline throws answers 500 with `success: false` and its message;
      whatever it inserted before failing stays. */
  lemma PipelineErrorAnswers500(b: RequestBody, auth: AuthAnswer, services: Services, db: Db)
    requires RequestedLevel(b.level).Some? && Authenticated(auth)
    requires GenerateCompleteLesson(services, db, RequestedLevel(b.level).value, b.topic).result.Err?
    ensures var run := GenerateCompleteLesson(services, db, RequestedLevel(b.level).value, b.topic);
      Post(Ok(b), auth, services, db) == Outcome(Response(500, FailurePayload(run.result.message)), run.db, run.prompts)
  {
  }
}

=== FILE: loginpage.dfy ===
/** `handleLogin` of src/app/login/page.tsx: a username and password become a
    password sign-in on the username's internal e-mail. */
module LoginPage {
  import opened Results
  import opened UsernameAuth

  /** The auth service's answer to `signInWithPassword`. */
  datatype SignInReply = SignInFailed(message: string) | SignedIn | SignInThrew

  /** The page state after the handler: the error shown, the loading flag, the
      e-mail a sign-in was attempted with, and where the router was sent. */
  datatype LoginView = LoginView(error: string, loading: bool, signInEmail: Option<string>, navigateTo: Option<string>)

  const DashboardPath := "/dashboard"
  const GenericErrorMessage := "An error occurred"

  function HandleLogin(username: string, password: string, domain: string, signIn: (string, string) -> SignInReply): (v: LoginView)
    ensures !v.loading
    ensures !IsValidUsername(username) ==> v == LoginView(InvalidUsernameMessage, false, None, None)
    ensures IsValidUsername(username) ==> v.signInEmail == Some(ToInternalEmail(username, domain))
    ensures IsValidUsername(username) ==>
      match signIn(ToInternalEmail(username, domain), password)
      case SignInFailed(m) => v.error == m && v.navigateTo.None?
      case SignedIn => v.error == "" && v.navigateTo == Some(DashboardPath)
      case SignInThrew => v.error == GenericErrorMessage && v.navigateTo.None?
  {
    var normalized := NormalizeUsername(username);
    ValidityIgnoresNormalization(username);
    if !IsValidUsername(normalized) then LoginView(InvalidUsernameMessage, false, None, None)
    else
      var email := ToInternalEmail(normalized, domain);
      InternalEmailIgnoresNormalization(username, domain);
      match signIn(email, password)
      case SignInFailed(m) => LoginView(m, false, Some(email), None)
      case SignedIn => LoginView("", false, Some(email), Some(DashboardPath))
      case SignInThrew => LoginView(GenericErrorMessage, false, Some(email), None)
  }

  /** Spacing and letter case do not matter: inputs that normalise alike log in
      identically. */
  lemma EquivalentUsernamesLogInAlike(a: string, b: string, password: string, domain: string, signIn: (string, string) -> SignInReply)
    requires NormalizeUsername(a) == NormalizeUsername(b)
    ensures HandleLogin(a, password, domain, signIn) == HandleLogin(b, password, domain, signIn)
  {
    InternalEmailIdentifiesUser(a, b, domain);
  }

  /** A login reaches the account of a sign-up exactly when the two usernames
      normalise alike. */
  lemma LoginReachesSignupAccount(login: string, signup: string, password: string, domain: string, signIn: (string, string) -> SignInReply)
    requires IsValidUsername(login)
    ensures HandleLogin(login, password, domain, signIn).signInEmail == Some(ToInternalEmail(signup, domain))
            <==> NormalizeUsername(login) == NormalizeUsername(signup)
  {
    InternalEmailIdentifiesUser(login, signup, domain);
  }
}

=== FILE: mobilenav.dfy ===
/** The bottom navigation bar (src/components/MobileBottomNav.tsx): which of its five
    links is highlighted for the current path. */
module MobileNav {
  import opened Results
  import opened Text

  datatype NavItem = NavItem(href: string, caption: string)

  const NavItems: seq<NavItem> := [
    NavItem("/dashboard", "Accueil"),
    NavItem("/lessons", "Lecons"),
    NavItem("/vocabulary", "Vocabulaire"),
    NavItem("/quizzes", "Quiz"),
    NavItem("/profile", "Profil")
  ]

  /** A link is active on its own path and on every path below it. */
  predicate IsActive(pathname: Option<string>, href: string) {
    pathname == Some(href) || (pathname.Some? && StartsWith(pathname.value, href + "/"))
  }

  /** What the bar renders: nothing without a signed-in user, otherwise one
      highlighted-or-not flag per link, in order. */
  function Render(signedIn: bool, pathname: Option<string>): (r: Option<seq<bool>>)
    ensures !signedIn <==> r.None?
    ensures r.Some? ==> |r.value| == |NavItems|
    ensures r.Some? ==> forall i :: 0 <= i < |NavItems| ==> r.value[i] == IsActive(pathname, NavItems[i].href)
  {
    if !signedIn then None
    else Some(seq(|NavItems|, i requires 0 <= i < |NavItems| => IsActive(pathname, NavItems[i].href)))
  }

  /** A link is active exactly when the path is the link or starts with it followed by
      a `/`: a path that merely shares the prefix does not count. */
  lemma {:induction false} ActiveMeansSegmentPrefix(path: string, href: string)
    requires href != []
    ensures IsActive(Some(path), href) <==>
      StartsWith(path, href) && (|path| == |href| || path[|href|] == '/')
  {
    if IsActive(Some(path), href) && path != href {
      assert path[..|href| + 1] == href + "/";
      assert path[..|href|] == (href + "/")[..|href|];
    }
    if StartsWith(path, href) && |path| == |href| {
      assert path == path[..|href|];
    }
    if StartsWith(path, href) && |path| > |href| && path[|href|] == '/' {
      assert path[..|href| + 1] == path[..|href|] + [path[|href|]];
    }
  }

  lemma SiblingPrefixIsInactive(path: string)
    requires path == "/lessonsX"
    ensures !IsActive(Some(path), "/lessons")
  {
    ActiveMeansSegmentPrefix(path, "/lessons");
  }

  lemma NoPathNothingActive(href: string)
    ensures !IsActive(None, href)
  {
  }

  /** The second character of an active link's href is that of the path. */
  lemma ActiveSharesSecondChar(path: string, href: string)
    requires |href| >= 2 && IsActive(Some(path), href)
    ensures |path| >= 2 && path[1] == href[1]
  {
    if path != href {
      assert path[..|href| + 1] == href + "/";
      assert path[1] == (href + "/")[1];
    }
  }

  /** At most one link is highlighted at a time. */
  lemma AtMostOneActive(pathname: Option<string>, i: nat, j: nat)
    requires i < |NavItems| && j < |NavItems|
    requires IsActive(pathname, NavItems[i].href) && IsActive(pathname, NavItems[j].href)
    ensures i == j
  {
    var hi, hj := NavItems[i].href, NavItems[j].href;
    assert forall k :: 0 <= k < |NavItems| ==> |NavItems[k].href| >= 2;
    ActiveSharesSecondChar(pathname.value, hi);
    ActiveSharesSecondChar(pathname.value, hj);
    assert forall k, l :: 0 <= k < l < |NavItems| ==> NavItems[k].href[1] != NavItems[l].href[1];
  }
}

=== FILE: profilepage.dfy ===
/** The profile page (src/app/profile/page.tsx): the statistics derived from the
    user's rows, and the password-change form. */
module ProfilePage {
  import opened Results

  // ---------------------------------------------------------------- statistics

  datatype Stats = Stats(lessonsStarted: nat, lessonsCompleted: nat, totalWordsLearned: nat, quizzesAttempted: nat)

  const InitialStats := Stats(0, 0, 0, 0)

  /** A `user_progress` row, reduced to its `completed` flag. */
  datatype ProgressRow = ProgressRow(lessonId: string, completed: bool)

  /** `progressData?.filter(p => p.completed).length`. */
  function CompletedCount(progress: seq<ProgressRow>): (n: nat)
    ensures n <= |progress|
    ensures n == 0 <==> forall i :: 0 <= i < |progress| ==> !progress[i].completed
  {
    if progress == [] then 0
    else CompletedCount(progress[..|progress| - 1]) + (if progress[|progress| - 1].completed then 1 else 0)
  }

  /** `data?.length || 0`: null data counts as none. */
  function RowCount<T>(data: Option<seq<T>>): (n: nat)
    ensures data.None? ==> n == 0
    ensures data.Some? ==> n == |data.value|
  {
    if data.Some? then |data.value| else 0
  }

  /** The state the page keeps: the profile row, the stats, and the loading flag. */
  datatype ProfileView = ProfileView(profile: Option<string>, stats: Stats, loading: bool)

  const InitialView := ProfileView(None, InitialStats, true)

  /** `fetchProfileData`. `profile` is the profile query (its error is thrown); the
      other three are the rows of the user's progress, learned words and quiz
      attempts, null when their query failed. */
  function FetchProfileData<L, Q>(signedIn: bool, profile: Result<string>, progress: Option<seq<ProgressRow>>,
                                  learned: Option<seq<L>>, attempts: Option<seq<Q>>): (v: ProfileView)
    ensures !signedIn ==> v == InitialView
    ensures signedIn && profile.Err? ==> v == ProfileView(None, InitialStats, false)
    ensures v.stats.lessonsCompleted <= v.stats.lessonsStarted
    ensures signedIn && profile.Ok? ==>
      && v.profile == Some(profile.value) && !v.loading
      && v.stats.lessonsStarted == RowCount(progress)
      && v.stats.totalWordsLearned == RowCount(learned)
      && v.stats.quizzesAttempted == RowCount(attempts)
      && (progress.None? ==> v.stats.lessonsCompleted == 0)
      && (progress.Some? ==> v.stats.lessonsCompleted == CompletedCount(progress.value))
  {
    if !signedIn then InitialView
    else match profile
      case Err(_) => ProfileView(None, InitialStats, false)
      case Ok(p) =>
        var completed := if progress.Some? then CompletedCount(progress.value) else 0;
        ProfileView(Some(p), Stats(RowCount(progress), completed, RowCount(learned), RowCount(attempts)), false)
  }

  /** Every stat is zero when its query returned nothing. */
  lemma AbsentDataGivesZero<L, Q>(profile: string)
    ensures FetchProfileData<L, Q>(true, Ok(profile), None, None, None).stats == InitialStats
  {
  }

  // ---------------------------------------------------------------- password change

  datatype PasswordForm = PasswordForm(currentPassword: string, newPassword: string, confirmPassword: string)

  datatype Message = SuccessMessage(text: string) | ErrorMessage(text: string)

  /** The message shown, the form afterwards, and the password sent to `updateUser`. */
  datatype PasswordChange = PasswordChange(message: Message, form: PasswordForm, update: Option<string>)

  const MismatchMessage := "Passwords do not match"
  const TooShortMessage := "Password must be at least 6 characters"
  const UpdatedMessage := "Password updated successfully!"
  const UpdateFailedMessage := "Failed to update password"
  const MinPasswordLength := 6

  /** `handlePasswordChange`; `updateError` is the auth service's answer to the update
      (`None` when it succeeded, otherwise the error's message). */
  function HandlePasswordChange(form: PasswordForm, updateError: string -> Option<string>): (r: PasswordChange)
    ensures form.newPassword != form.confirmPassword ==> r == PasswordChange(ErrorMessage(MismatchMessage), form, None)
    ensures form.newPassword == form.confirmPassword && |form.newPassword| < MinPasswordLength ==>
      r == PasswordChange(ErrorMessage(TooShortMessage), form, None)
    ensures r.update.Some? <==> form.newPassword == form.confirmPassword && |form.newPassword| >= MinPasswordLength
    ensures r.update.Some? ==> r.update.value == form.newPassword
    ensures r.update.Some? && updateError(form.newPassword).None? ==>
      r.message == SuccessMessage(UpdatedMessage) && r.form == PasswordForm("", "", "")
    ensures r.update.Some? && updateError(form.newPassword).Some? ==>
      r.form == form
      && r.message == ErrorMessage(if updateError(form.newPassword).value != "" then updateError(form.newPassword).value else UpdateFailedMessage)
  {
    if form.newPassword != form.confirmPassword then PasswordChange(ErrorMessage(MismatchMessage), form, None)
    else if |form.newPassword| < MinPasswordLength then PasswordChange(ErrorMessage(TooShortMessage), form, None)
    else match updateError(form.newPassword)
      case None => PasswordChange(SuccessMessage(UpdatedMessage), PasswordForm("", "", ""), Some(form.newPassword))
      case Some(m) => PasswordChange(ErrorMessage(if m != "" then m else UpdateFailedMessage), form, Some(form.newPassword))
  }

  /** A mismatch is reported even when the new password is also too short. */
  lemma MismatchReportedBeforeLength(form: PasswordForm, updateError: string -> Option<string>)
    requires form.newPassword != form.confirmPassword && |form.newPassword| < MinPasswordLength
    ensures HandlePasswordChange(form, updateError).message == ErrorMessage(MismatchMessage)
  {
  }

  /** The current password plays no part: forms that differ only there lead to the
      same message and the same update. */
  lemma CurrentPasswordIsIgnored(form: PasswordForm, other: string, updateError: string -> Option<string>)
    ensures var a := HandlePasswordChange(form, updateError);
      var b := HandlePasswordChange(form.(currentPassword := other), updateError);
      a.message == b.message && a.update == b.update
  {
  }
}

=== FILE: quizzespage.dfy ===
/** The quizzes page (src/app/quizzes/page.tsx): lessons with the number of quiz
    questions each one has, and the total. */
module QuizzesPage {
  import opened Results
  import opened Text

  datatype LessonEntry = LessonEntry(id: string, title: string, description: string, level: string, orderIndex: Option<int>)

  /** A `quiz_questions` row, reduced to the columns the page selects. */
  datatype QuizRef = QuizRef(id: string, lessonId: string)

  /** A plain object used as a counter map, as a list of entries; the page only looks
      counts up and sums them, so the order of the entries is never observed. */
  type Counts = seq<(string, nat)>

  /** `counts[key] || 0`. */
  function Lookup(counts: Counts, key: string): nat {
    if counts == [] then 0
    else if counts[0].0 == key then counts[0].1
    else Lookup(counts[1..], key)
  }

  /** No key occurs twice, as in an object. */
  predicate DistinctKeys(counts: Counts) {
    forall i, j :: 0 <= i < j < |counts| ==> counts[i].0 != counts[j].0
  }

  /** `counts[key] = (counts[key] || 0) + 1`: bump an existing entry in place, or
      append a new one. */
  function Increment(counts: Counts, key: string): (r: Counts)
    ensures |r| == |counts| || |r| == |counts| + 1
    ensures forall i :: 0 <= i < |counts| ==> r[i].0 == counts[i].0
    ensures |r| == |counts| + 1 ==> r[|counts|] == (key, 1)
    ensures |r| == |counts| + 1 ==> forall i :: 0 <= i < |counts| ==> counts[i].0 != key
  {
    if counts == [] then [(key, 1)]
    else if counts[0].0 == key then [(key, counts[0].1 + 1)] + counts[1..]
    else [counts[0]] + Increment(counts[1..], key)
  }

  /** `Object.values(counts).reduce((a, b) => a + b, 0)`. */
  function Total(counts: Counts): nat {
    if counts == [] then 0 else counts[0].1 + Total(counts[1..])
  }

  /** The quiz rows of one lesson. */
  function Occurrences(quizzes: seq<QuizRef>, lessonId: string): (n: nat)
    ensures n <= |quizzes|
  {
    if quizzes == [] then 0
    else Occurrences(quizzes[..|quizzes| - 1], lessonId) + (if quizzes[|quizzes| - 1].lessonId == lessonId then 1 else 0)
  }

  /** The `forEach` over the quiz rows, in order: at most one entry per row, and
      every key is the lesson of some row. */
  function CountByLesson(quizzes: seq<QuizRef>): (counts: Counts)
    ensures |counts| <= |quizzes|
    ensures forall k :: 0 <= k < |counts| ==> exists i :: 0 <= i < |quizzes| && quizzes[i].lessonId == counts[k].0
  {
    if quizzes == [] then []
    else
      var init := quizzes[..|quizzes| - 1];
      var counts := Increment(CountByLesson(init), quizzes[|quizzes| - 1].lessonId);
      assert forall i :: 0 <= i < |init| ==> init[i] == quizzes[i];
      counts
  }

  lemma {:induction false} LookupAfterIncrement(counts: Counts, key: string, other: string)
    ensures Lookup(Increment(counts, key), other) == Lookup(counts, other) + (if other == key then 1 else 0)
  {
    if counts != [] && counts[0].0 != key {
      LookupAfterIncrement(counts[1..], key, other);
      assert Increment(counts, key)[1..] == Increment(counts[1..], key);
    }
  }

  lemma {:induction false} TotalAfterIncrement(counts: Counts, key: string)
    ensures Total(Increment(counts, key)) == Total(counts) + 1
  {
    if counts != [] {
      if counts[0].0 == key {
        assert Increment(counts, key)[1..] == counts[1..];
      } else {
        TotalAfterIncrement(counts[1..], key);
        assert Increment(counts, key)[1..] == Increment(counts[1..], key);
      }
    }
  }

  /** Each lesson's count is the number of its quiz rows. */
  lemma {:induction false} CountsMatchOccurrences(quizzes: seq<QuizRef>, lessonId: string)
    ensures Lookup(CountByLesson(quizzes), lessonId) == Occurrences(quizzes, lessonId)
  {
    if quizzes != [] {
      var init := quizzes[..|quizzes| - 1];
      CountsMatchOccurrences(init, lessonId);
      LookupAfterIncrement(CountByLesson(init), quizzes[|quizzes| - 1].lessonId, lessonId);
    }
  }

  /** The total shown is the number of quiz rows. */
  lemma {:induction false} TotalIsQuizCount(quizzes: seq<QuizRef>)
    ensures Total(CountByLesson(quizzes)) == |quizzes|
  {
    if quizzes != [] {
      var init := quizzes[..|quizzes| - 1];
      TotalIsQuizCount(init);
      TotalAfterIncrement(CountByLesson(init), quizzes[|quizzes| - 1].lessonId);
    }
  }

  /** A lesson without quiz rows has no entry, so the page shows 0 questions for it. */
  lemma {:induction false} LessonWithoutQuizzesShowsZero(quizzes: seq<QuizRef>, lessonId: string)
    requires forall i :: 0 <= i < |quizzes| ==> quizzes[i].lessonId != lessonId
    ensures Lookup(CountByLesson(quizzes), lessonId) == 0
  {
    if quizzes != [] {
      var init := quizzes[..|quizzes| - 1];
      LessonWithoutQuizzesShowsZero(init, lessonId);
      LookupAfterIncrement(CountByLesson(init), quizzes[|quizzes| - 1].lessonId, lessonId);
    }
  }

  lemma IncrementKeepsDistinct(counts: Counts, key: string)
    requires DistinctKeys(counts)
    ensures DistinctKeys(Increment(counts, key))
  {
  }

  /** Every lesson has one entry: keys enter the map once. */
  lemma {:induction false} KeysAreDistinct(quizzes: seq<QuizRef>)
    ensures DistinctKeys(CountByLesson(quizzes))
  {
    if quizzes != [] {
      var init := quizzes[..|quizzes| - 1];
      KeysAreDistinct(init);
      IncrementKeepsDistinct(CountByLesson(init), quizzes[|quizzes| - 1].lessonId);
    }
  }

  /** What the page holds after loading. */
  datatype QuizzesState = QuizzesState(lessons: seq<LessonEntry>, counts: Counts)

  /** `loadData`: an error from either query leaves the empty initial state; null data
      counts as an empty list. */
  function LoadQuizzes(lessons: Result<Option<seq<LessonEntry>>>, quizzes: Result<Option<seq<QuizRef>>>): (s: QuizzesState)
    ensures lessons.Err? || quizzes.Err? ==> s == QuizzesState([], [])
    ensures lessons.Ok? && quizzes.Ok? ==> s.lessons == lessons.value.OrElse([])
    ensures lessons.Ok? && quizzes.Ok? ==>
      && Total(s.counts) == |quizzes.value.OrElse([])|
      && forall id :: Lookup(s.counts, id) == Occurrences(quizzes.value.OrElse([]), id)
  {
    if lessons.Err? || quizzes.Err? then QuizzesState([], [])
    else
      var rows := quizzes.value.OrElse([]);
      TotalIsQuizCount(rows);
      forall id ensures Lookup(CountByLesson(rows), id) == Occurrences(rows, id) {
        CountsMatchOccurrences(rows, id);
      }
      QuizzesState(lessons.value.OrElse([]), CountByLesson(rows))
  }

  /** The badge `Lesson {order_index ?? index + 1}`: only a null index falls back to
      the position, so an index of 0 is shown as 0. */
  function LessonLabel(orderIndex: Option<int>, position: nat): (shown: int)
    ensures orderIndex.Some? ==> shown == orderIndex.value
    ensures orderIndex.None? ==> shown == position + 1 && shown >= 1
  {
    orderIndex.OrElse(position + 1)
  }

  const BeginnerColor := "from-emerald-500 to-teal-500"
  const IntermediateColor := "from-blue-500 to-cyan-500"
  const AdvancedColor := "from-purple-500 to-indigo-500"
  const OtherColor := "from-slate-500 to-slate-600"

  /** `getLevelColor`: the badge colour of a level name, whatever its letter case;
      a name that is none of the three levels gets the neutral colour. */
  function LevelColor(level: string): (color: string)
    ensures color in {BeginnerColor, IntermediateColor, AdvancedColor, OtherColor}
    ensures color == OtherColor <==> ToLower(level) !in {"beginner", "intermediate", "advanced"}
  {
    var l := ToLower(level);
    if l == "beginner" then BeginnerColor
    else if l == "intermediate" then IntermediateColor
    else if l == "advanced" then AdvancedColor
    else OtherColor
  }

  /** Lower-casing a level name first does not change its colour. */
  lemma LevelColorIgnoresCase(level: string)
    ensures LevelColor(ToLower(level)) == LevelColor(level)
  {
    ToLowerIdempotent(level);
  }
}

=== FILE: results.dfy ===
/** Failure-carrying values shared by every module: JavaScript's `null`/`undefined`
    become `None`, and a thrown `Error` becomes `Err` carrying the error's message. */
module Results {

  datatype Option<+T> = None | Some(value: T) {

    /** The `??` operator: the value when present, otherwise the default. */
    function OrElse(default: T): T {
      match this
      case Some(v) => v
      case None => default
    }
  }

  datatype Result<+T> = Ok(value: T) | Err(message: string)
}

=== FILE: signuppage.dfy ===
/** `handleSignup` of src/app/signup/page.tsx: register the username's internal
    e-mail with the auth service and write the matching profile row. */
module SignupPage {
  import opened Results
  import opened UsernameAuth
  import opened UserProfile

  datatype SignupForm = SignupForm(username: string, password: string, confirmPassword: string, fullName: string)

  /** The `signUp` call: e-mail, password and the user metadata. */
  datatype SignUpRequest = SignUpRequest(email: string, password: string, fullName: string, username: string)

  /** The auth service's answer: an error, or the created user's id (possibly none). */
  datatype SignUpReply = SignUpFailed(message: string) | SignedUp(userId: Option<string>) | SignUpThrew

  /** The row inserted into `users`. */
  datatype UserInsert = UserInsert(id: string, email: string, fullName: string, username: string)

  /** The page state after the handler. */
  datatype SignupView = SignupView(
    error: string, success: string, loading: bool,
    request: Option<SignUpRequest>, insert: Option<UserInsert>, redirectToLogin: bool)

  const MismatchMessage := "Passwords do not match"
  const CreatedMessage := "Account created successfully! You can now sign in."
  const GenericErrorMessage := "An error occurred"

  /** `loading` is the flag before the submit: the early returns leave it alone. */
  function HandleSignup(form: SignupForm, loading: bool, domain: string, signUp: SignUpRequest -> SignUpReply): (v: SignupView)
    ensures form.password != form.confirmPassword ==> v == SignupView(MismatchMessage, "", loading, None, None, false)
    ensures form.password == form.confirmPassword && !IsValidUsername(form.username) ==>
      v == SignupView(InvalidUsernameMessage, "", loading, None, None, false)
    ensures form.password == form.confirmPassword && IsValidUsername(form.username) ==>
      var request := SignUpRequest(ToInternalEmail(form.username, domain), form.password, form.fullName, NormalizeUsername(form.username));
      && !v.loading
      && v.request == Some(request)
      && (v.insert.Some? <==> signUp(request).SignedUp? && signUp(request).userId.Some?)
      && (v.insert.Some? ==> v.insert.value == UserInsert(signUp(request).userId.value, request.email, request.fullName, request.username))
      && (v.success != "" <==> signUp(request).SignedUp?)
      && (v.redirectToLogin <==> signUp(request).SignedUp?)
      && (signUp(request).SignUpFailed? ==> v.error == signUp(request).message)
      && (signUp(request).SignUpThrew? ==> v.error == GenericErrorMessage)
  {
    if form.password != form.confirmPassword then SignupView(MismatchMessage, "", loading, None, None, false)
    else
      var normalized := NormalizeUsername(form.username);
      ValidityIgnoresNormalization(form.username);
      if !IsValidUsername(normalized) then SignupView(InvalidUsernameMessage, "", loading, None, None, false)
      else
        var email := ToInternalEmail(normalized, domain);
        InternalEmailIgnoresNormalization(form.username, domain);
        var request := SignUpRequest(email, form.password, form.fullName, normalized);
        match signUp(request)
        case SignUpFailed(m) => SignupView(m, "", false, Some(request), None, false)
        case SignUpThrew => SignupView(GenericErrorMessage, "", false, Some(request), None, false)
        case SignedUp(userId) =>
          var insert := if userId.Some? then Some(UserInsert(userId.value, email, form.fullName, normalized)) else None;
          SignupView("", CreatedMessage, false, Some(request), insert, true)
  }

  /** The row written at sign-up is the row `ensureUserProfile` later upserts for the
      user the auth service created from the same request: the two never disagree. */
  lemma SignupRowAgreesWithProfileSync(form: SignupForm, loading: bool, domain: string, signUp: SignUpRequest -> SignUpReply)
    requires HandleSignup(form, loading, domain, signUp).insert.Some?
    ensures var v := HandleSignup(form, loading, domain, signUp);
      var r := v.request.value;
      var row := v.insert.value;
      ProfileRowFor(AuthUser(row.id, Some(r.email), Some(r.fullName), Some(r.username)))
        == ProfileRow(row.id, row.email, Some(row.fullName), Some(row.username))
  {
  }

  /** The username stored in the profile is the one the internal e-mail encodes. */
  lemma SignupEmailEncodesUsername(form: SignupForm, loading: bool, domain: string, signUp: SignUpRequest -> SignUpReply)
    requires HandleSignup(form, loading, domain, signUp).insert.Some?
    ensures var row := HandleSignup(form, loading, domain, signUp).insert.value;
      FallbackUsername(Some(row.email)) == Some(row.username)
  {
    var v := HandleSignup(form, loading, domain, signUp);
    assert form.password == form.confirmPassword && IsValidUsername(form.username);
    SignupUserKeepsUsername(AuthUser("", Some(v.insert.value.email), None, None), form.username, domain);
  }
}

=== FILE: text.dfy ===
/** The few JavaScript string operations the application relies on, over `string`
    (a sequence of Unicode scalar values). */
module Text {

  /** ECMAScript WhiteSpace and LineTerminator code points: exactly what
      `String.prototype.trim` removes from both ends. */
  const TrimmableChars: set<char> := {
    '\t', '\n', '\U{000B}', '\U{000C}', '\r', ' ', '\U{00A0}', '\U{1680}',
    '\U{2000}', '\U{2001}', '\U{2002}', '\U{2003}', '\U{2004}', '\U{2005}',
    '\U{2006}', '\U{2007}', '\U{2008}', '\U{2009}', '\U{200A}',
    '\U{2028}', '\U{2029}', '\U{202F}', '\U{205F}', '\U{3000}', '\U{FEFF}'
  }

  predicate IsTrimmable(c: char) {
    c in TrimmableChars
  }

  /** Neither end of `s` is a character `trim` would remove. */
  predicate Trimmed(s: string) {
    s == [] || (!IsTrimmable(s[0]) && !IsTrimmable(s[|s| - 1]))
  }

  /** Index of the first character `trimStart` keeps: everything before it is
      whitespace, and it is not. */
  function TrimStartIndex(s: string): (n: nat)
    ensures n <= |s|
    ensures forall i :: 0 <= i < n ==> IsTrimmable(s[i])
    ensures n < |s| ==> !IsTrimmable(s[n])
  {
    if s != [] && IsTrimmable(s[0]) then 1 + TrimStartIndex(s[1..]) else 0
  }

  /** Index just past the last character `trimEnd` keeps: everything from it on is
      whitespace, and the character before it is not. */
  function TrimEndIndex(s: string): (n: nat)
    ensures n <= |s|
    ensures forall i :: n <= i < |s| ==> IsTrimmable(s[i])
    ensures n > 0 ==> !IsTrimmable(s[n - 1])
  {
    if s != [] && IsTrimmable(s[|s| - 1]) then TrimEndIndex(s[..|s| - 1]) else |s|
  }

  /** `String.prototype.trim`: the infix of `s` between the first and the last
      character that is not whitespace; everything cut away is whitespace. */
  function Trim(s: string): (r: string)
    ensures Trimmed(r)
    ensures var i := TrimStartIndex(s);
      && i + |r| <= |s|
      && r == s[i..i + |r|]
      && (forall k :: 0 <= k < i ==> IsTrimmable(s[k]))
      && (forall k :: i + |r| <= k < |s| ==> IsTrimmable(s[k]))
  {
    var i, j := TrimStartIndex(s), TrimEndIndex(s);
    if i == |s| then [] else s[i..j]
  }

  lemma TrimKeepsTrimmed(s: string)
    requires Trimmed(s)
    ensures Trim(s) == s
  {
  }

  /** Upper-case letters this model gives a lower-case mapping: ASCII, the Latin-1
      capitals U+00C0..U+00DE except U+00D7, the capitals of U+0153 and U+00FF, and
      the KELVIN SIGN U+212A, the only non-ASCII character whose lower case is a
      single ASCII letter. */
  predicate IsUpper(c: char) {
    || ('A' <= c <= 'Z')
    || ('\U{00C0}' <= c <= '\U{00DE}' && c != '\U{00D7}')
    || c == '\U{0152}' || c == '\U{0178}' || c == '\U{212A}'
  }

  /** `toLowerCase` on one character, restricted to the letters of `IsUpper`. */
  function LowerChar(c: char): (r: char)
    ensures !IsUpper(r)
    ensures !IsUpper(c) ==> r == c
    ensures IsTrimmable(r) <==> IsTrimmable(c)
  {
    if 'A' <= c <= 'Z' then (c as int + 32) as char
    else if '\U{00C0}' <= c <= '\U{00DE}' && c != '\U{00D7}' then (c as int + 32) as char
    else if c == '\U{0152}' then '\U{0153}'
    else if c == '\U{0178}' then '\U{00FF}'
    else if c == '\U{212A}' then 'k'
    else c
  }

  function ToLower(s: string): (r: string)
    ensures |r| == |s|
    ensures forall i :: 0 <= i < |s| ==> r[i] == LowerChar(s[i])
  {
    seq(|s|, i requires 0 <= i < |s| => LowerChar(s[i]))
  }

  /** Lower-casing never brings whitespace to either end. */
  lemma ToLowerKeepsTrimmed(s: string)
    requires Trimmed(s)
    ensures Trimmed(ToLower(s))
  {
    var r := ToLower(s);
    if r != [] {
      assert r[0] == LowerChar(s[0]);
      assert r[|r| - 1] == LowerChar(s[|s| - 1]);
    }
  }

  lemma ToLowerIdempotent(s: string)
    ensures ToLower(ToLower(s)) == ToLower(s)
  {
  }

  predicate StartsWith(s: string, prefix: string) {
    |prefix| <= |s| && s[..|prefix|] == prefix
  }

  /** `s.split(sep)[0]`: the text before the first `sep`, or all of `s` when there is none. */
  function BeforeFirst(s: string, sep: char): (r: string)
    ensures |r| <= |s| && r == s[..|r|]
    ensures sep !in r
    ensures |r| < |s| ==> s[|r|] == sep
  {
    if s == [] || s[0] == sep then [] else [s[0]] + BeforeFirst(s[1..], sep)
  }

  /** Splitting at a separator the head does not contain gives the head back. */
  lemma {:induction false} BeforeFirstOfJoin(head: string, sep: char, tail: string)
    requires sep !in head
    ensures BeforeFirst(head + [sep] + tail, sep) == head
  {
    if head != [] {
      assert (head + [sep] + tail)[1..] == head[1..] + [sep] + tail;
      BeforeFirstOfJoin(head[1..], sep, tail);
    }
  }

  function Digit(d: nat): (c: char)
    requires d < 10
    ensures '0' <= c <= '9'
  {
    ('0' as int + d) as char
  }

  /** Decimal rendering of a natural number, as template literals print it. */
  function NatToString(n: nat): (r: string)
    ensures r != []
    ensures forall i :: 0 <= i < |r| ==> '0' <= r[i] <= '9'
  {
    if n < 10 then [Digit(n)] else NatToString(n / 10) + [Digit(n % 10)]
  }
}

=== FILE: usernameauth.dfy ===
/** The username-to-internal-email identity scheme (src/lib/usernameAuth.ts): users
    type a username, the auth service only knows e-mail addresses, so every username
    is mapped to `<normalised username>@<internal domain>`. */
module UsernameAuth {
  import opened Results
  import opened Text

  const DefaultInternalEmailDomain := "internal.yourapp.com"

  /** The message the sign-up and login pages show for a username the pattern rejects. */
  const InvalidUsernameMessage := "Le nom d'utilisateur doit contenir 3-20 caracteres (lettres, chiffres, underscore)."

  /** The configured domain, or the default when the variable is missing or empty
      (the `||` fallback). */
  function InternalEmailDomain(env: Option<string>): (d: string)
    ensures d != []
    ensures env.Some? && env.value != [] ==> d == env.value
    ensures env.None? || env.value == [] ==> d == DefaultInternalEmailDomain
  {
    if env.Some? && env.value != [] then env.value else DefaultInternalEmailDomain
  }

  /** `value.trim().toLowerCase()`. */
  function NormalizeUsername(value: string): (r: string)
    ensures Trimmed(r)
    ensures forall i :: 0 <= i < |r| ==> !IsUpper(r[i])
    ensures |r| <= |value|
  {
    ToLowerKeepsTrimmed(Trim(value));
    ToLower(Trim(value))
  }

  predicate UsernameChar(c: char) {
    ('a' <= c <= 'z') || ('0' <= c <= '9') || c == '_'
  }

  /** The anchored pattern `^[a-z0-9_]{min,max}$`, matched one character at a time. */
  function MatchesUsernamePattern(s: string, min: nat, max: nat): (b: bool)
    ensures b <==> min <= |s| <= max && forall i :: 0 <= i < |s| ==> UsernameChar(s[i])
  {
    if s == [] then min == 0
    else max > 0 && UsernameChar(s[0])
         && MatchesUsernamePattern(s[1..], if min > 0 then min - 1 else 0, max - 1)
  }

  /** `isValidUsername`: the normalised value matches `^[a-z0-9_]{3,20}$`. */
  function IsValidUsername(value: string): (b: bool)
    ensures b <==> var n := NormalizeUsername(value);
                   3 <= |n| <= 20 && forall i :: 0 <= i < |n| ==> UsernameChar(n[i])
  {
    MatchesUsernamePattern(NormalizeUsername(value), 3, 20)
  }

  /** `toInternalEmail`: the address ends in `@` and the domain, and for a valid
      username the text before its first `@` is the normalised username. */
  function ToInternalEmail(username: string, domain: string): (email: string)
    ensures |email| > |domain| && email[|email| - |domain| - 1..] == "@" + domain
    ensures IsValidUsername(username) ==> BeforeFirst(email, '@') == NormalizeUsername(username)
  {
    var n := NormalizeUsername(username);
    if IsValidUsername(username) then
      ValidUsernameHasNoAt(username);
      AddressParts(n, domain);
      n + "@" + domain
    else
      AddressParts(n, domain);
      n + "@" + domain
  }

  /** A valid username, normalised, holds no `@`. */
  lemma ValidUsernameHasNoAt(username: string)
    requires IsValidUsername(username)
    ensures var n := NormalizeUsername(username); forall i :: 0 <= i < |n| ==> n[i] != '@'
  {
  }

  /** The address `local@domain` ends in `@` and the domain, and gives back `local`
      before its first `@` when `local` has none. */
  lemma AddressParts(local: string, domain: string)
    ensures var email := local + "@" + domain;
      |email| > |domain| && email[|email| - |domain| - 1..] == "@" + domain
    ensures (forall i :: 0 <= i < |local| ==> local[i] != '@') ==> BeforeFirst(local + "@" + domain, '@') == local
  {
    var email := local + "@" + domain;
    assert email[|email| - |domain| - 1..] == "@" + domain;
    if forall i :: 0 <= i < |local| ==> local[i] != '@' {
      BeforeFirstOfJoin(local, '@', domain);
    }
  }

  lemma NormalizeIdempotent(value: string)
    ensures NormalizeUsername(NormalizeUsername(value)) == NormalizeUsername(value)
  {
    var n := NormalizeUsername(value);
    TrimKeepsTrimmed(n);
    ToLowerIdempotent(Trim(value));
  }

  lemma ValidityIgnoresNormalization(value: string)
    ensures IsValidUsername(NormalizeUsername(value)) == IsValidUsername(value)
  {
    NormalizeIdempotent(value);
  }

  lemma InternalEmailIgnoresNormalization(value: string, domain: string)
    ensures ToInternalEmail(NormalizeUsername(value), domain) == ToInternalEmail(value, domain)
  {
    NormalizeIdempotent(value);
  }

  /** Two usernames share an internal e-mail exactly when they normalise alike. */
  lemma InternalEmailIdentifiesUser(a: string, b: string, domain: string)
    ensures ToInternalEmail(a, domain) == ToInternalEmail(b, domain)
            <==> NormalizeUsername(a) == NormalizeUsername(b)
  {
    var na, nb := NormalizeUsername(a), NormalizeUsername(b);
    if ToInternalEmail(a, domain) == ToInternalEmail(b, domain) {
      assert |na| == |nb|;
      assert na == ToInternalEmail(a, domain)[..|na|];
      assert nb == ToInternalEmail(b, domain)[..|nb|];
    }
  }

  /** The local part of the internal e-mail of a valid username is that username,
      normalised: e-mail to username and back loses nothing. */
  lemma EmailLocalPartRoundTrip(username: string, domain: string)
    requires IsValidUsername(username)
    ensures BeforeFirst(ToInternalEmail(username, domain), '@') == NormalizeUsername(username)
  {
    var n := NormalizeUsername(username);
    assert forall i :: 0 <= i < |n| ==> n[i] != '@';
    BeforeFirstOfJoin(n, '@', domain);
  }

  /** The KELVIN SIGN lower-cases to `k`, so a username spelt with it normalises to
      its ASCII spelling. */
  lemma KelvinSignNormalizes(name: string)
    requires name == "\U{212A}ate"
    ensures NormalizeUsername(name) == "kate"
  {
    assert !IsTrimmable(name[0]) && !IsTrimmable(name[|name| - 1]);
    TrimKeepsTrimmed(name);
    var lower := ToLower(name);
    assert lower[0] == 'k' && lower[1] == 'a' && lower[2] == 't' && lower[3] == 'e';
  }

  /** Hence it is a valid username and names the same account as `kate`. */
  lemma KelvinSignUsername(name: string, domain: string)
    requires name == "\U{212A}ate"
    ensures IsValidUsername(name)
    ensures ToInternalEmail(name, domain) == ToInternalEmail("kate", domain)
  {
    KelvinSignNormalizes(name);
    NormalizeIdempotent(name);
  }
}

=== FILE: userprofile.dfy ===
/** `ensureUserProfile` (src/lib/userProfile.ts): mirror an authenticated user into the
    application's `users` table. */
module UserProfile {
  import opened Results
  import opened Text
  import opened UsernameAuth

  /** The parts of an auth-service user the profile is built from; the metadata
      members are `None` when absent or null. */
  datatype AuthUser = AuthUser(id: string, email: Option<string>, metadataFullName: Option<string>, metadataUsername: Option<string>)

  /** A row of the `users` table; `None` is SQL null. */
  datatype ProfileRow = ProfileRow(id: string, email: string, fullName: Option<string>, username: Option<string>)

  /** The answer, and the row that was upserted (if any). */
  datatype ProfileSync = ProfileSync(synced: bool, upserted: Option<ProfileRow>)

  /** `emailPrefix ? normalizeUsername(emailPrefix) : null`, where the prefix is the text
      before the first `@`: no e-mail, or an empty prefix, gives no fallback. */
  function FallbackUsername(email: Option<string>): (r: Option<string>)
    ensures r.Some? <==> email.Some? && email.value != [] && email.value[0] != '@'
    ensures r.Some? ==> r.value == NormalizeUsername(BeforeFirst(email.value, '@'))
  {
    match email
    case None => None
    case Some(e) =>
      var prefix := BeforeFirst(e, '@');
      if prefix != [] then Some(NormalizeUsername(prefix)) else None
  }

  /** The row `ensureUserProfile` upserts for `user`. */
  function ProfileRowFor(user: AuthUser): (row: ProfileRow)
    ensures row.id == user.id
    ensures user.email.Some? ==> row.email == user.email.value
    ensures user.email.None? ==> row.email == ""
    ensures row.fullName == user.metadataFullName
    ensures user.metadataUsername.Some? ==> row.username == user.metadataUsername
    ensures user.metadataUsername.None? ==> row.username == FallbackUsername(user.email)
  {
    ProfileRow(user.id, user.email.OrElse(""), user.metadataFullName,
               if user.metadataUsername.Some? then user.metadataUsername else FallbackUsername(user.email))
  }

  /** `ensureUserProfile(user)`; `upsertError` is the store's answer to the upsert. */
  function EnsureUserProfile(user: Option<AuthUser>, upsertError: ProfileRow -> Option<string>): (sync: ProfileSync)
    ensures user.None? ==> sync == ProfileSync(false, None)
    ensures user.Some? ==> sync.upserted == Some(ProfileRowFor(user.value))
    ensures user.Some? ==> (sync.synced <==> upsertError(ProfileRowFor(user.value)).None?)
  {
    match user
    case None => ProfileSync(false, None)
    case Some(u) =>
      var row := ProfileRowFor(u);
      ProfileSync(upsertError(row).None?, Some(row))
  }

  /** A user created by sign-up (internal e-mail of a valid username) gets back the
      normalised username as profile username, whether or not the metadata kept it. */
  lemma SignupUserKeepsUsername(user: AuthUser, username: string, domain: string)
    requires IsValidUsername(username)
    requires user.email == Some(ToInternalEmail(username, domain))
    requires user.metadataUsername.None? || user.metadataUsername == Some(NormalizeUsername(username))
    ensures ProfileRowFor(user).username == Some(NormalizeUsername(username))
  {
    EmailLocalPartRoundTrip(username, domain);
    NormalizeIdempotent(username);
    var e := ToInternalEmail(username, domain);
    assert e[0] == NormalizeUsername(username)[0];
  }

  /** An empty metadata username is kept as is: `??` only replaces null and undefined. */
  lemma EmptyMetadataUsernameWins(user: AuthUser)
    requires user.metadataUsername == Some("")
    ensures EnsureUserProfile(Some(user), _ => None).upserted.value.username == Some("")
  {
  }
}

=== FILE: vocabularypage.dfy ===
/** The vocabulary page (src/app/vocabulary/page.tsx): loading the word list with the
    user's learned words and today's selection, toggling a word learned, the four
    filters, and the counters the page shows. */
module VocabularyPage {
  import opened Results

  datatype VocabularyItem = VocabularyItem(
    id: string, word: string, frenchMeaning: string, exampleEn: string, exampleFr: string, lessonId: string)

  /** How many unlearned words a day's selection holds at most. */
  const DailyWordCount := 10

  /** `new Set(ids)`. */
  function SetOf(ids: seq<string>): (s: set<string>)
    ensures forall id :: id in s <==> id in ids
  {
    set id | id in ids
  }

  /** The ids occurring in a word list. */
  function Ids(vocabulary: seq<VocabularyItem>): set<string> {
    set i | 0 <= i < |vocabulary| :: vocabulary[i].id
  }

  /** A list has no more distinct ids than entries. */
  lemma {:induction false} IdsBound(vocabulary: seq<VocabularyItem>)
    ensures |Ids(vocabulary)| <= |vocabulary|
  {
    if vocabulary != [] {
      var init := vocabulary[..|vocabulary| - 1];
      IdsBound(init);
      assert Ids(vocabulary) == Ids(init) + {vocabulary[|vocabulary| - 1].id};
    }
  }

  // ---------------------------------------------------------------- filters

  datatype Filter = AllWords | LearnedWords | UnlearnedWords | DailyWords

  /** The predicate of `filteredVocabulary` for one word id. */
  predicate Shows(filter: Filter, learned: set<string>, daily: set<string>, showReview: bool, id: string) {
    match filter
    case LearnedWords => id in learned
    case UnlearnedWords => id !in learned
    case DailyWords => if showReview then id in daily && id in learned else id in daily && id !in learned
    case AllWords => true
  }

  /** `vocabulary.filter(...)`: the shown words, in list order. */
  function Filtered(vocabulary: seq<VocabularyItem>, learned: set<string>, daily: set<string>, filter: Filter, showReview: bool): (r: seq<VocabularyItem>)
    ensures |r| <= |vocabulary|
    ensures forall v :: v in r <==> v in vocabulary && Shows(filter, learned, daily, showReview, v.id)
  {
    if vocabulary == [] then []
    else
      var last := vocabulary[|vocabulary| - 1];
      Filtered(vocabulary[..|vocabulary| - 1], learned, daily, filter, showReview)
        + (if Shows(filter, learned, daily, showReview, last.id) then [last] else [])
  }

  lemma {:induction false} AllFilterShowsEverything(vocabulary: seq<VocabularyItem>, learned: set<string>, daily: set<string>, showReview: bool)
    ensures Filtered(vocabulary, learned, daily, AllWords, showReview) == vocabulary
  {
    if vocabulary != [] {
      AllFilterShowsEverything(vocabulary[..|vocabulary| - 1], learned, daily, showReview);
      assert vocabulary[..|vocabulary| - 1] + [vocabulary[|vocabulary| - 1]] == vocabulary;
    }
  }

  /** Filtering a list extended by one word extends the filtered list by that word
      when the filter shows it. */
  lemma FilteredSnoc(init: seq<VocabularyItem>, last: VocabularyItem, learned: set<string>, daily: set<string>, filter: Filter, showReview: bool)
    ensures Filtered(init + [last], learned, daily, filter, showReview)
            == Filtered(init, learned, daily, filter, showReview) + (if Shows(filter, learned, daily, showReview, last.id) then [last] else [])
  {
    assert (init + [last])[..|init|] == init;
  }

  /** The learned and unlearned views split the list: every word, with its
      multiplicity, is in exactly one of them. */
  lemma {:induction false} LearnedAndUnlearnedPartition(vocabulary: seq<VocabularyItem>, learned: set<string>, daily: set<string>, showReview: bool)
    ensures multiset(Filtered(vocabulary, learned, daily, LearnedWords, showReview))
            + multiset(Filtered(vocabulary, learned, daily, UnlearnedWords, showReview))
            == multiset(vocabulary)
  {
    if vocabulary != [] {
      var init, last := vocabulary[..|vocabulary| - 1], vocabulary[|vocabulary| - 1];
      assert init + [last] == vocabulary;
      LearnedAndUnlearnedPartition(init, learned, daily, showReview);
      FilteredSnoc(init, last, learned, daily, LearnedWords, showReview);
      FilteredSnoc(init, last, learned, daily, UnlearnedWords, showReview);
    }
  }

  /** The daily view shows today's words that are still to learn, or, in review mode,
      today's words already learned; the two modes never share a word. */
  lemma DailyViewModes(vocabulary: seq<VocabularyItem>, learned: set<string>, daily: set<string>, v: VocabularyItem)
    ensures v in Filtered(vocabulary, learned, daily, DailyWords, false) <==> v in vocabulary && v.id in daily && v.id !in learned
    ensures v in Filtered(vocabulary, learned, daily, DailyWords, true) <==> v in vocabulary && v.id in daily && v.id in learned
    ensures !(v in Filtered(vocabulary, learned, daily, DailyWords, false) && v in Filtered(vocabulary, learned, daily, DailyWords, true))
  {
  }

  // ---------------------------------------------------------------- counters

  lemma {:induction false} SubsetCardinality(a: set<string>, b: set<string>)
    requires a <= b
    ensures |a| <= |b|
  {
    if a != {} {
      var x :| x in a;
      SubsetCardinality(a - {x}, b - {x});
    }
  }

  /** `learnedCount`: learned ids that belong to a listed word, so a stale learned id
      for a word no longer listed is not counted. */
  function LearnedCount(learned: set<string>, vocabulary: seq<VocabularyItem>): (n: nat)
    ensures n <= |vocabulary| && n <= |learned|
  {
    var counted := set id | id in learned && id in Ids(vocabulary);
    SubsetCardinality(counted, Ids(vocabulary));
    IdsBound(vocabulary);
    SubsetCardinality(counted, learned);
    |counted|
  }

  /** Appending a word adds its id to the list's ids. */
  lemma IdsSnoc(init: seq<VocabularyItem>, last: VocabularyItem)
    ensures Ids(init + [last]) == Ids(init) + {last.id}
  {
    var v := init + [last];
    assert forall i :: 0 <= i < |init| ==> v[i] == init[i];
    assert v[|init|] == last;
  }

  /** Appending a word with a new id adds one to the learned counter exactly when
      that word is learned. */
  lemma LearnedCountSnoc(learned: set<string>, init: seq<VocabularyItem>, last: VocabularyItem)
    requires last.id !in Ids(init)
    ensures LearnedCount(learned, init + [last]) == LearnedCount(learned, init) + (if last.id in learned then 1 else 0)
  {
    IdsSnoc(init, last);
    var before := set id | id in learned && id in Ids(init);
    var after := set id | id in learned && id in Ids(init + [last]);
    if last.id in learned {
      assert after == before + {last.id};
    } else {
      assert after == before;
    }
  }

  /** When no id is listed twice, the learned counter is the number of words the
      "learned" tab shows. */
  lemma {:induction false} LearnedCountIsLearnedTabSize(learned: set<string>, daily: set<string>, showReview: bool,
                                                       vocabulary: seq<VocabularyItem>)
    requires forall i, j :: 0 <= i < j < |vocabulary| ==> vocabulary[i].id != vocabulary[j].id
    ensures LearnedCount(learned, vocabulary) == |Filtered(vocabulary, learned, daily, LearnedWords, showReview)|
  {
    if vocabulary == [] {
      assert (set id | id in learned && id in Ids(vocabulary)) == {};
    } else {
      var init, last := vocabulary[..|vocabulary| - 1], vocabulary[|vocabulary| - 1];
      assert init + [last] == vocabulary;
      LearnedCountIsLearnedTabSize(learned, daily, showReview, init);
      FilteredSnoc(init, last, learned, daily, LearnedWords, showReview);
      assert last.id !in Ids(init);
      LearnedCountSnoc(learned, init, last);
    }
  }

  /** The "Révision" counter: today's words already learned. */
  function ReviewCount(daily: set<string>, learned: set<string>): nat {
    |set id | id in daily && id in learned|
  }

  /** The "Nouveaux" counter: today's size minus the review counter. */
  function NewCount(daily: set<string>, learned: set<string>): int {
    |daily| - ReviewCount(daily, learned)
  }

  /** The two counters split today's words: "new" counts exactly the ones not yet learned. */
  lemma DailyCountersSplitToday(daily: set<string>, learned: set<string>)
    ensures NewCount(daily, learned) == |daily - learned|
    ensures 0 <= NewCount(daily, learned) && NewCount(daily, learned) + ReviewCount(daily, learned) == |daily|
  {
    var review := set id | id in daily && id in learned;
    assert review == daily * learned;
    assert daily == (daily - learned) + review;
    assert (daily - learned) * review == {};
  }

  // ---------------------------------------------------------------- daily selection

  /** The words not yet learned, in list order. */
  function Unlearned(vocabulary: seq<VocabularyItem>, learned: set<string>): seq<VocabularyItem> {
    Filtered(vocabulary, learned, {}, UnlearnedWords, false)
  }

  /** `unlearnedWords.slice(0, 10)`. */
  function DailyPick(vocabulary: seq<VocabularyItem>, learned: set<string>): (pick: seq<VocabularyItem>)
    ensures |pick| <= DailyWordCount && |pick| <= |Unlearned(vocabulary, learned)|
    ensures |pick| == DailyWordCount || |pick| == |Unlearned(vocabulary, learned)|
    ensures pick == Unlearned(vocabulary, learned)[..|pick|]
    ensures forall v :: v in pick ==> v in vocabulary && v.id !in learned
  {
    var unlearned := Unlearned(vocabulary, learned);
    if |unlearned| <= DailyWordCount then unlearned else unlearned[..DailyWordCount]
  }

  /** A selection short of ten words took every unlearned word; a full one took the
      first ten. */
  lemma DailyPickTakesFirstUnlearned(vocabulary: seq<VocabularyItem>, learned: set<string>)
    ensures var pick := DailyPick(vocabulary, learned);
      |pick| < DailyWordCount ==> forall v :: v in vocabulary && v.id !in learned ==> v in pick
    ensures |Unlearned(vocabulary, learned)| >= DailyWordCount ==> |DailyPick(vocabulary, learned)| == DailyWordCount
  {
  }

  datatype TrackingRow = TrackingRow(userId: string, vocabularyId: string, shownDate: string, isReview: bool)

  /** The tracking rows recording a selection as shown today, not as review. */
  function TrackingRows(userId: string, pick: seq<VocabularyItem>, today: string): (rows: seq<TrackingRow>)
    ensures |rows| == |pick|
    ensures forall i :: 0 <= i < |pick| ==> rows[i] == TrackingRow(userId, pick[i].id, today, false)
  {
    seq(|pick|, i requires 0 <= i < |pick| => TrackingRow(userId, pick[i].id, today, false))
  }

  /** Today's words and the tracking rows inserted for them. */
  datatype Today = Today(daily: set<string>, tracking: seq<TrackingRow>)

  /** Lines 59-89 once today's tracked ids were read: keep them when there are any,
      otherwise choose and record a fresh selection (nothing when no word is left to
      learn, or when the word query returned no data). */
  function SelectToday(userId: string, data: Option<seq<VocabularyItem>>, learned: set<string>, rows: Option<seq<string>>, today: string): (t: Today)
    ensures rows.OrElse([]) != [] ==> t == Today(SetOf(rows.value), [])
    ensures t.tracking == [] && rows.OrElse([]) == [] ==> t.daily == {}
    ensures t.tracking != [] ==>
      && rows.OrElse([]) == [] && data.Some?
      && t.tracking == TrackingRows(userId, DailyPick(data.value, learned), today)
      && t.daily == Ids(DailyPick(data.value, learned))
    ensures rows.OrElse([]) == [] && data.Some? && Unlearned(data.value, learned) != [] ==> t.tracking != []
  {
    var daily := SetOf(rows.OrElse([]));
    assert rows.OrElse([]) != [] ==> rows.value[0] in daily;
    if |daily| != 0 || data.None? then Today(daily, [])
    else
      var pick := DailyPick(data.value, learned);
      if pick == [] then Today(daily, [])
      else Today(Ids(pick), TrackingRows(userId, pick, today))
  }

  /** The page state the load leaves, and the tracking rows it inserted. */
  datatype VocabularyState = VocabularyState(vocabulary: seq<VocabularyItem>, learned: set<string>, daily: set<string>, tracking: seq<TrackingRow>)

  const InitialState := VocabularyState([], {}, {}, [])

  /** `fetchVocabulary`. `words` is the word query (an error, or data that may be
      null); `learnedRows` the learned ids (null on error); `dailyRows` today's
      tracked ids; `today` the date string. */
  function LoadVocabulary(user: Option<string>, words: Result<Option<seq<VocabularyItem>>>,
                          learnedRows: Option<seq<string>>, dailyRows: Result<Option<seq<string>>>, today: string): (s: VocabularyState)
    ensures words.Err? ==> s == InitialState
    ensures words.Ok? ==> s.vocabulary == words.value.OrElse([])
    ensures user.None? || dailyRows.Err? ==> s.daily == {} && s.tracking == []
    ensures user.None? ==> s.learned == {}
    ensures user.Some? && words.Ok? ==> s.learned == SetOf(learnedRows.OrElse([]))
    ensures user.Some? && words.Ok? && dailyRows.Ok? ==>
      Today(s.daily, s.tracking) == SelectToday(user.value, words.value, s.learned, dailyRows.value, today)
  {
    match words
    case Err(_) => InitialState
    case Ok(data) =>
      var vocabulary := data.OrElse([]);
      if user.None? then VocabularyState(vocabulary, {}, {}, [])
      else
        var learned := SetOf(learnedRows.OrElse([]));
        match dailyRows
        case Err(_) => VocabularyState(vocabulary, learned, {}, [])
        case Ok(rows) =>
          var t := SelectToday(user.value, data, learned, rows, today);
          VocabularyState(vocabulary, learned, t.daily, t.tracking)
  }

  /** A freshly chosen selection holds only unlearned words, so the "new" counter
      starts at its full size. */
  lemma FreshSelectionIsUnlearned(user: Option<string>, words: Result<Option<seq<VocabularyItem>>>,
                                  learnedRows: Option<seq<string>>, dailyRows: Result<Option<seq<string>>>, today: string)
    ensures var s := LoadVocabulary(user, words, learnedRows, dailyRows, today);
      s.tracking != [] ==> s.daily * s.learned == {} && NewCount(s.daily, s.learned) == |s.daily|
  {
    var s := LoadVocabulary(user, words, learnedRows, dailyRows, today);
    if s.tracking != [] {
      assert (set id | id in s.daily && id in s.learned) == {};
    }
  }

  /** The `vocabulary_id` column of tracking rows, as the next load reads it back. */
  function TrackedIds(rows: seq<TrackingRow>): (ids: seq<string>)
    ensures |ids| == |rows|
    ensures forall i :: 0 <= i < |rows| ==> ids[i] == rows[i].vocabularyId
  {
    seq(|rows|, i requires 0 <= i < |rows| => rows[i].vocabularyId)
  }

  /** The ids read back from a selection's tracking rows are the selection's ids. */
  lemma TrackedIdsOfSelection(userId: string, pick: seq<VocabularyItem>, today: string)
    ensures SetOf(TrackedIds(TrackingRows(userId, pick, today))) == Ids(pick)
  {
    var tracked := TrackedIds(TrackingRows(userId, pick, today));
    forall id | id in Ids(pick) ensures id in tracked {
      var i :| 0 <= i < |pick| && pick[i].id == id;
      assert tracked[i] == id;
    }
    forall id | id in tracked ensures id in Ids(pick) {
      var i :| 0 <= i < |tracked| && tracked[i] == id;
      assert pick[i].id == id;
    }
  }

  /** Reading back the rows a fresh selection inserted gives that selection again and
      inserts nothing more: the selection is made once a day. */
  lemma SelectionIsStableWithinADay(userId: string, data: Option<seq<VocabularyItem>>, learned: set<string>, today: string)
    ensures var first := SelectToday(userId, data, learned, Some([]), today);
      var second := SelectToday(userId, data, learned, Some(TrackedIds(first.tracking)), today);
      first.tracking != [] ==> second == Today(first.daily, [])
  {
    var first := SelectToday(userId, data, learned, Some([]), today);
    if first.tracking != [] {
      TrackedIdsOfSelection(userId, DailyPick(data.value, learned), today);
      assert TrackedIds(first.tracking) != [];
    }
  }

  // ---------------------------------------------------------------- toggling

  datatype LearnedCall = DeleteLearned(userId: string, vocabularyId: string) | UpsertLearned(userId: string, vocabularyId: string)

  /** The store's answer: done, an error it reported, or an exception. */
  datatype CallOutcome = Done | Reported(message: string) | Threw(message: string)

  datatype Toggle = Toggle(learned: set<string>, call: Option<LearnedCall>, alert: Option<string>)

  /** `toggleLearned(vocabId)`. */
  function ToggleLearned(user: Option<string>, learned: set<string>, vocabId: string, answer: LearnedCall -> CallOutcome): (t: Toggle)
    ensures user.None? ==> t == Toggle(learned, None, None)
    ensures user.Some? ==> t.call == Some(if vocabId in learned then DeleteLearned(user.value, vocabId) else UpsertLearned(user.value, vocabId))
    ensures user.Some? && answer(t.call.value).Done? ==>
      t.alert.None? && t.learned == (if vocabId in learned then learned - {vocabId} else learned + {vocabId})
    ensures user.Some? && !answer(t.call.value).Done? ==> t.learned == learned && t.alert.Some?
    ensures user.Some? && answer(t.call.value).Reported? ==>
      t.alert == Some((if vocabId in learned then "Failed to update: " else "Failed to save: ") + answer(t.call.value).message)
    ensures user.Some? && answer(t.call.value).Threw? ==> t.alert == Some("Failed to update: " + answer(t.call.value).message)
  {
    match user
    case None => Toggle(learned, None, None)
    case Some(u) =>
      if vocabId in learned then
        var call := DeleteLearned(u, vocabId);
        match answer(call)
        case Done => Toggle(learned - {vocabId}, Some(call), None)
        case Reported(m) => Toggle(learned, Some(call), Some("Failed to update: " + m))
        case Threw(m) => Toggle(learned, Some(call), Some("Failed to update: " + m))
      else
        var call := UpsertLearned(u, vocabId);
        match answer(call)
        case Done => Toggle(learned + {vocabId}, Some(call), None)
        case Reported(m) => Toggle(learned, Some(call), Some("Failed to save: " + m))
        case Threw(m) => Toggle(learned, Some(call), Some("Failed to update: " + m))
  }

  /** A successful toggle flips the word and touches no other id. */
  lemma ToggleFlipsOnlyThatWord(user: string, learned: set<string>, vocabId: string, answer: LearnedCall -> CallOutcome, other: string)
    requires forall c :: answer(c) == Done
    requires other != vocabId
    ensures var t := ToggleLearned(Some(user), learned, vocabId, answer);
      (vocabId in t.learned <==> vocabId !in learned) && (other in t.learned <==> other in learned)
  {
  }

  /** Two successful toggles of the same word restore the learned set. */
  lemma ToggleTwiceRestores(user: string, learned: set<string>, vocabId: string, answer: LearnedCall -> CallOutcome)
    requires forall c :: answer(c) == Done
    ensures ToggleLearned(Some(user), ToggleLearned(Some(user), learned, vocabId, answer).learned, vocabId, answer).learned == learned
  {
  }
}
